=== FILE: README.md ===
# Vendor compliance: the risk and audit engine in Dafny

This project models the risk and audit engine of a vendor-compliance service
(a Spring application). Vendors are onboarded, approved or rejected. They upload
compliance documents of five required types, each with an expiry date, and
collect audit flags. A risk score in 0..100 is derived from three things:
- the required document types a vendor lacks (20 points each);
- the types whose latest document expired before today (30 points each);
- the vendor's open flags (25 points each).

Two daily jobs raise flags:
- one for vendors whose APPROVED documents have expired;
- one for vendors whose score is 60 or more.

The model has these layers, one module each:

- `Common`: statuses, document types, `Option`/`Result`, the string predicates the
  code relies on (`startsWith`, `contains`, `isBlank`) and decimal rendering.
- `Seqs`: generic filtering, de-duplication and a stable descending sort. These are
  the repository queries' building blocks, with their algebra (filter/concat,
  filter/sort commutation).
- `Entities`: `Vendor`, `Document` and `AuditFlag` as row values. The persist and
  update hooks become the functions that build or stamp a row.
- `Repositories`: the derived queries as functions over the tables. Each one has
  its meaning stated: membership, order, counts.
- `Risk`: the scorer. It covers the latest document per type, the
  missing/expired classification, the capped score and the level. The two loops
  of the source (`mapLatestDocuments` and the classification loop) are methods
  proved against these functions.
- `Ledger`: the store (three tables) and its invariants: ids are positions,
  registration numbers are unique, flags point at stored vendors. It also has the
  store updates every service shares: rescore, add a flag, resolve a flag, add a
  document.
- `Services`: every public service operation as a function from the store before
  to `Outcome(result, store after)`. A failed call returns an error and leaves
  the store untouched, as the transaction's rollback does.
- `Sweeps`: the two daily jobs as functions of the store.
- `Engine`: `ComplianceEngine`, one class holding the three tables as `seq`
  fields. Its methods perform the calls step by step, with loops where the source
  loops. Each method is proved to compute exactly the corresponding `Services` or
  `Sweeps` function, and to keep the store invariants (`Valid`, `Evolves`).

Points where the code behaves in ways a reader may not expect:

- **Status changes.** `updateStatus` refuses only a change to the status the
  vendor already has. An APPROVED vendor can therefore be rejected, and a REJECTED
  one approved (`Services.StatusChangeTwice`). These statuses are not terminal.
- **Re-resolving a flag.** Resolving a flag that is already resolved succeeds and
  overwrites its resolution time (`Services.FlagResolutionTwice`).
- **The high-risk job's guard.** It looks for an open flag whose text contains
  "High risk". The job's own flags read "Vendor risk score exceeded threshold:
  N/100", so the guard never matches them, and every run flags every high-risk
  vendor again (`Sweeps.HighRiskRefires`).
- **Writing the risk score.** `updateRiskScore` is a public operation that writes
  any score. The 0..100 bound holds for scores written by the scorer
  (`Ledger.RescoreKeepsScoresInRange`), not for the store as a whole.
- **Expired on the expiry date.** The expiry query selects documents with
  `expiryDate <= today`, while the scorer and the document response count a
  document as expired only when `expiryDate < today`. A document expiring today
  is flagged by the job but still counted as current (`Sweeps.SameDayExpiry`).

Identifiers are generated by the database in insertion order. The model
therefore stores the row with id `k` at position `k - 1` of its table.
`LocalDate.now()` and `LocalDateTime.now()` are the parameters `today` and
`now`; dates and times are integers.

## Model

| member | source | states |
|---|---|---|
| `Common.NatToDecimal` | src/main/java/com/vendorcompliance/service/ScheduledJobService.java:96-103 | the score's decimal text is a non-empty run of digits with no leading zero |
| `Common.DecimalRoundTrip` | src/main/java/com/vendorcompliance/service/ScheduledJobService.java:96-103 | the decimal text of a score reads back as the same number |
| `Entities.WithRiskScore` | src/main/java/com/vendorcompliance/service/VendorService.java:85-90 | writing a score changes only the score, its calculation time and possibly the update time; identity and status are kept |
| `Entities.StatusChangeFrame` | src/main/java/com/vendorcompliance/service/VendorService.java:98-117 | a real status change sets status, updater and update time, replaces the notes only when the comment has text, and keeps the score and identity fields |
| `Entities.NewDocumentDefaults` | src/main/java/com/vendorcompliance/service/VendorDocumentService.java:58-65 | an upload without a file name or content type gets "document.bin" / "application/octet-stream"; otherwise the given values are kept |
| `Repositories.FindVendorById` | src/main/java/com/vendorcompliance/service/VendorService.java:93-96 | a vendor is found exactly when a stored vendor has the id, and it is that vendor |
| `Repositories.ExistsByRegistrationNumber` | src/main/java/com/vendorcompliance/repository/VendorRepository.java:15 | true exactly when some stored vendor has the registration number |
| `Repositories.FindByRiskScoreAtLeast` | src/main/java/com/vendorcompliance/repository/VendorRepository.java:17 | exactly the vendors whose score is at least the threshold |
| `Repositories.FindByStatusNewestFirst` | src/main/java/com/vendorcompliance/repository/VendorRepository.java:11 | exactly the vendors with the status, each as often as stored, newest creation first |
| `Repositories.FindAllNewestFirst` | src/main/java/com/vendorcompliance/repository/VendorRepository.java:13 | a permutation of all vendors, newest creation first |
| `Repositories.ByVendorNewestFirst` | src/main/java/com/vendorcompliance/repository/VendorDocumentRepository.java:14 | exactly the vendor's documents, each as often as stored, newest upload first |
| `Repositories.ByVendorAndType` | src/main/java/com/vendorcompliance/repository/VendorDocumentRepository.java:16 | exactly the vendor's documents of the type |
| `Repositories.TopByVendorAndType` | src/main/java/com/vendorcompliance/repository/VendorDocumentRepository.java:18 | none exactly when the vendor has no document of the type; otherwise one of them, uploaded no earlier than any other |
| `Repositories.ExpiredDocuments` | src/main/java/com/vendorcompliance/repository/VendorDocumentRepository.java:20-21 | exactly the documents expiring on or before the date whose vendor is APPROVED |
| `Repositories.UnresolvedByVendor` | src/main/java/com/vendorcompliance/repository/AuditFlagRepository.java:10 | exactly the vendor's unresolved flags |
| `Repositories.CountMatchesQuery` | src/main/java/com/vendorcompliance/repository/AuditFlagRepository.java:12 | the count query equals the length of the list query |
| `Repositories.CountZeroIffNoneOpen` | src/main/java/com/vendorcompliance/repository/AuditFlagRepository.java:12 | the count is zero exactly when every flag of the vendor is resolved |
| `Risk.RiskScore` | src/main/java/com/vendorcompliance/service/RiskService.java:65-69 | the score never exceeds 100 or the uncapped weighted sum, equals the sum when that is at most 100, and is 100 otherwise |
| `Risk.RiskScoreMonotone` | src/main/java/com/vendorcompliance/service/RiskService.java:65-69 | more missing, expired or flagged items never lower the score |
| `Risk.FourFlagsSaturate` | src/main/java/com/vendorcompliance/service/RiskService.java:65-69 | four open flags alone reach the cap of 100 |
| `Risk.ToRiskLevel` | src/main/java/com/vendorcompliance/service/RiskService.java:96-104 | LOW exactly up to 20, MEDIUM exactly from 21 to 50, HIGH exactly above 50 |
| `Risk.LevelBoundaries` | src/main/java/com/vendorcompliance/service/RiskService.java:96-104 | the boundary scores 0, 20, 21, 50, 51 and 100 fall in the documented levels |
| `Risk.LevelMonotone` | src/main/java/com/vendorcompliance/service/RiskService.java:96-104 | a higher score never has a lower level |
| `Risk.FirstOfType` | src/main/java/com/vendorcompliance/service/RiskService.java:88-94 | none exactly when no document has the type; otherwise a document of that type from the list |
| `Risk.FirstOfTypeIsNewest` | src/main/java/com/vendorcompliance/service/RiskService.java:88-94 | in a newest-first list the first document of a type is the newest of that type |
| `Risk.FirstOfTypeIsFilterHead` | src/main/java/com/vendorcompliance/service/RiskService.java:88-94 | the first document of a type is the head of the list filtered to that type |
| `Risk.LatestAgreesWithTopQuery` | src/main/java/com/vendorcompliance/service/RiskService.java:88-94 | the scorer's latest document of a type is the one the top-by-type query returns |
| `Risk.LatestByType` | src/main/java/com/vendorcompliance/service/RiskService.java:88-94 | a type is mapped exactly when a document of it exists, and to a document of that type from the list |
| `Risk.LatestByTypeAt` | src/main/java/com/vendorcompliance/service/RiskService.java:88-94 | each entry of the map is the first document of its type (first put wins) |
| `Risk.MapLatestDocuments` | src/main/java/com/vendorcompliance/service/RiskService.java:88-94 | the loop with putIfAbsent builds exactly the latest-by-type map |
| `Risk.MissingTypes` | src/main/java/com/vendorcompliance/service/RiskService.java:56-63 | exactly the required types that have no latest document |
| `Risk.ExpiredTypes` | src/main/java/com/vendorcompliance/service/RiskService.java:56-63 | exactly the types whose latest document expired strictly before today |
| `Risk.ClassifyRequiredTypes` | src/main/java/com/vendorcompliance/service/RiskService.java:56-63 | the loop over the required types yields exactly the missing and the expired lists |
| `Risk.ClassificationSizes` | src/main/java/com/vendorcompliance/service/RiskService.java:56-63 | neither list repeats a type and together they hold at most the five required types |
| `Risk.ClassifyByDocuments` | src/main/java/com/vendorcompliance/service/RiskService.java:56-63 | every type is in exactly one class (missing, expired, current), decided by its newest document |
| `Risk.Evaluate` | src/main/java/com/vendorcompliance/service/RiskService.java:46-81 | the report's lists are the missing and expired types of the documents, its score is the capped score of their sizes and the flag count, and its level is that score's level |
| `Risk.FreshUploadNeverRaisesScore` | src/main/java/com/vendorcompliance/service/RiskService.java:46-81 | putting a document current today in front of the list never raises the score |
| `Risk.ResponseAgreesWithScorer` | src/main/java/com/vendorcompliance/service/VendorDocumentService.java:92-103 | the document response's expired flag agrees with the scorer's classification of the latest document |
| `Ledger.Rescore` | src/main/java/com/vendorcompliance/service/RiskService.java:84-86 | a rescore rewrites only the target vendor's score fields; an unknown vendor leaves the store unchanged |
| `Ledger.RescoreIdempotent` | src/main/java/com/vendorcompliance/service/RiskService.java:46-81 | a second rescore with nothing in between yields the same assessment and changes nothing |
| `Ledger.RescoreKeepsScoresInRange` | src/main/java/com/vendorcompliance/service/RiskService.java:67-70 | scores written by the scorer keep every stored score within 0..100 |
| `Ledger.RescoreEvolves` | src/main/java/com/vendorcompliance/service/RiskService.java:70 | a rescore keeps the store invariants and changes no identity |
| `Ledger.AddFlagCounts` | src/main/java/com/vendorcompliance/service/AuditFlagService.java:31-45 | a new flag raises its vendor's open count by one and leaves every other vendor's count |
| `Ledger.ResolveCounts` | src/main/java/com/vendorcompliance/service/AuditFlagService.java:48-60 | resolving lowers the owner's open count by one if the flag was open, and changes no other count |
| `Ledger.UploadComesFirst` | src/main/java/com/vendorcompliance/service/VendorDocumentService.java:67 | a document uploaded last comes first in its vendor's newest-first list |
| `Ledger.CurrentUploadNeverRaisesScore` | src/main/java/com/vendorcompliance/service/VendorDocumentService.java:38-77 | uploading a document current today never raises the vendor's score |
| `Services.Onboarding` | src/main/java/com/vendorcompliance/service/VendorService.java:29-49 | fails exactly on a registration number already stored, leaving the store unchanged; otherwise appends a PENDING vendor with score 0, the next id, every field of the request copied, and the actor as creator and updater |
| `Services.OnboardingEvolves` | src/main/java/com/vendorcompliance/entity/Vendor.java:30 | onboarding keeps registration numbers unique and the other store invariants |
| `Services.OnboardingTwiceFails` | src/main/java/com/vendorcompliance/service/VendorService.java:30-32 | a second onboarding with the same registration number fails |
| `Services.ReviewTarget` | src/main/java/com/vendorcompliance/service/VendorService.java:75-82 | APPROVE approves; any other decision, a missing one included, rejects |
| `Services.StatusChange` | src/main/java/com/vendorcompliance/service/VendorService.java:98-117 | not found exactly for an unknown id; a bad request exactly when the status is already the target; success otherwise, where only status, updater, update time and possibly the notes change |
| `Services.StatusChangeTwice` | src/main/java/com/vendorcompliance/service/VendorService.java:98-117 | repeating a change fails and changes nothing, while a change to any other status succeeds |
| `Services.RiskUpdate` | src/main/java/com/vendorcompliance/service/VendorService.java:85-90 | not found exactly for an unknown id; otherwise only that vendor's score fields change, to the given score and now |
| `Services.RiskCalculation` | src/main/java/com/vendorcompliance/service/RiskService.java:46-81 | not found exactly for an unknown vendor; otherwise the assessment of the stored documents and flags, whose score is written back to that vendor alone |
| `Services.RiskCalculationTwice` | src/main/java/com/vendorcompliance/service/RiskService.java:46-81 | calculating again gives the same report except for its time |
| `Services.FlagAddition` | src/main/java/com/vendorcompliance/service/AuditFlagService.java:31-45 | not found exactly for an unknown vendor; otherwise one new open flag with the next id, the open count up by one, and the vendor's score and calculation time rewritten from the new assessment with no other field of any vendor changed |
| `Services.FlagResolution` | src/main/java/com/vendorcompliance/service/AuditFlagService.java:48-60 | not found exactly for an unknown flag id; otherwise that flag alone becomes resolved at now, and only its owner is rescored: its score equals the new assessment, its calculation time is now, and its other fields are kept |
| `Services.FlagResolutionCounts` | src/main/java/com/vendorcompliance/service/AuditFlagService.java:48-60 | the owner's open count drops by one only if the flag was open, and the owner's stored score matches the new state |
| `Services.FlagResolutionTwice` | src/main/java/com/vendorcompliance/service/AuditFlagService.java:48-60 | resolving a resolved flag succeeds again and only moves its resolution time |
| `Services.DocumentUpload` | src/main/java/com/vendorcompliance/service/VendorDocumentService.java:38-77 | each error (unknown vendor, then empty file, then missing type, then missing expiry) occurs exactly under its condition and changes nothing; every valid upload succeeds, appends one document with the next id and the given vendor, type, file, expiry date and uploader, returns the view of that stored document and reports it expired iff its date is before today, and rewrites only the vendor's score fields from the new assessment |
| `Services.UploadKeepsHistory` | src/main/java/com/vendorcompliance/service/VendorDocumentService.java:38-77 | an upload keeps every earlier document, and the new one becomes the latest of its type |
| `Sweeps.VendorsWithExpired` | src/main/java/com/vendorcompliance/service/ScheduledJobService.java:49-51 | exactly the vendor ids of the expired documents, each once |
| `Seqs.DistinctOrder` | src/main/java/com/vendorcompliance/service/ScheduledJobService.java:58-61 | `distinct()` keeps encounter order: the distinct type names appear in the order of their first occurrences |
| `Sweeps.ExpiryDescription` | src/main/java/com/vendorcompliance/service/ScheduledJobService.java:58-63 | the flag text starts with "Expired documents", the prefix the guard checks |
| `Sweeps.ExpiryStepFlagsAndRescores` | src/main/java/com/vendorcompliance/service/ScheduledJobService.java:66-81 | an unguarded vendor gets one new open flag that then guards it, and is rescored |
| `Sweeps.ExpiryPass` | src/main/java/com/vendorcompliance/service/ScheduledJobService.java:53-81 | the loop keeps the documents and the existing flags as a prefix, adds no more flags than there are visited ids, and changes only score fields of vendors |
| `Sweeps.ExpiryPassAdds` | src/main/java/com/vendorcompliance/service/ScheduledJobService.java:53-81 | for distinct visited ids, each added flag is an open expiry flag with the next id and the vendor's expiry text, for a visited id of a stored vendor, and no vendor gets two |
| `Sweeps.ExpiryPassCovers` | src/main/java/com/vendorcompliance/service/ScheduledJobService.java:53-81 | after the loop every visited id of a stored vendor carries a guarding flag |
| `Sweeps.ExpirySweepAdds` | src/main/java/com/vendorcompliance/service/ScheduledJobService.java:44-84 | a run adds only open expiry flags, at most one per vendor, each for a vendor with an expired document of an APPROVED vendor, and changes nothing else but scores |
| `Sweeps.ExpirySweepTwice` | src/main/java/com/vendorcompliance/service/ScheduledJobService.java:44-84 | a second run on the same day changes nothing |
| `Sweeps.ExpirySweepEvolves` | src/main/java/com/vendorcompliance/service/ScheduledJobService.java:44-84 | a run keeps the store invariants |
| `Sweeps.SameDayExpiry` | src/main/java/com/vendorcompliance/repository/VendorDocumentRepository.java:20-21 | a latest document expiring today is selected by the job's query yet counted neither missing nor expired by the scorer |
| `Sweeps.HighRiskTextLacksMarker` | src/main/java/com/vendorcompliance/service/ScheduledJobService.java:93-103 | the job's flag text never contains "High risk", the text its guard looks for |
| `Sweeps.HighRiskPass` | src/main/java/com/vendorcompliance/service/ScheduledJobService.java:91-104 | the loop keeps the existing flags as a prefix and adds no more flags than there are candidates |
| `Sweeps.HighRiskPassAdds` | src/main/java/com/vendorcompliance/service/ScheduledJobService.java:96-103 | each added flag is an open high-risk flag of a candidate with the next id and its score in the text |
| `Sweeps.HighRiskGuardStable` | src/main/java/com/vendorcompliance/service/ScheduledJobService.java:93-94 | a run never changes whether a vendor has a guarding flag |
| `Sweeps.HighRiskPassGrowth` | src/main/java/com/vendorcompliance/service/ScheduledJobService.java:88-105 | a run adds as many flags as there are candidates without a guarding flag at the start |
| `Sweeps.HighRiskPassExact` | src/main/java/com/vendorcompliance/service/ScheduledJobService.java:91-104 | the flags after the loop are the flags before it followed by one open high-risk flag for each candidate without a guarding flag at the start, in candidate order, numbered consecutively, and none for any other candidate |
| `Sweeps.HighRiskFlagsAt` | src/main/java/com/vendorcompliance/service/ScheduledJobService.java:96-102 | the i-th flag in the list the loop appends for a list of vendors is a new open flag of the i-th vendor, with id one past the i-th next id and that vendor's score in its text |
| `Sweeps.HighRiskRefires` | src/main/java/com/vendorcompliance/service/ScheduledJobService.java:88-105 | without a guarding flag, a second run adds as many flags as the first, one per high-risk vendor |
| `Sweeps.HighRiskSweep` | src/main/java/com/vendorcompliance/service/ScheduledJobService.java:88-105 | the job leaves vendors and documents unchanged |
| `Sweeps.HighRiskSweepEvolves` | src/main/java/com/vendorcompliance/service/ScheduledJobService.java:88-105 | the job keeps the store invariants |
| `Engine.ComplianceEngine.constructor` | src/main/java/com/vendorcompliance/entity/Vendor.java:20-22 | the engine starts with three empty tables |
| `Engine.ComplianceEngine.FindVendorOrThrow` | src/main/java/com/vendorcompliance/service/VendorService.java:93-96 | found exactly for a stored id, and then the stored vendor; not found otherwise |
| `Engine.ComplianceEngine.OnboardVendor` | src/main/java/com/vendorcompliance/service/VendorService.java:29-49 | performs `Services.Onboarding` on the tables |
| `Engine.ComplianceEngine.ListVendors` | src/main/java/com/vendorcompliance/service/VendorService.java:57-62 | all vendors, or exactly those with the status, each as often as it is stored, newest creation first |
| `Engine.ComplianceEngine.UpdateStatus` | src/main/java/com/vendorcompliance/service/VendorService.java:98-117 | performs `Services.StatusChange` on the tables, for the two targets its callers use |
| `Engine.ComplianceEngine.ApproveVendor` | src/main/java/com/vendorcompliance/service/VendorService.java:65-67 | a status change to APPROVED |
| `Engine.ComplianceEngine.RejectVendor` | src/main/java/com/vendorcompliance/service/VendorService.java:70-72 | a status change to REJECTED |
| `Engine.ComplianceEngine.ReviewVendor` | src/main/java/com/vendorcompliance/service/VendorService.java:75-82 | a status change to the decision's target |
| `Engine.ComplianceEngine.UpdateRiskScore` | src/main/java/com/vendorcompliance/service/VendorService.java:85-90 | performs `Services.RiskUpdate` on the tables |
| `Engine.ComplianceEngine.ListVendorDocumentsForRisk` | src/main/java/com/vendorcompliance/service/VendorDocumentService.java:88-90 | exactly the vendor's documents, newest upload first |
| `Engine.ComplianceEngine.ListVendorDocuments` | src/main/java/com/vendorcompliance/service/VendorDocumentService.java:80-85 | not found exactly for an unknown vendor; otherwise the responses of the vendor's documents, newest first |
| `Engine.ComplianceEngine.UploadDocument` | src/main/java/com/vendorcompliance/service/VendorDocumentService.java:38-77 | performs `Services.DocumentUpload` on the tables |
| `Engine.ComplianceEngine.CalculateRiskScore` | src/main/java/com/vendorcompliance/service/RiskService.java:46-81 | performs `Services.RiskCalculation` on the tables |
| `Engine.ComplianceEngine.RecalculateRiskForVendor` | src/main/java/com/vendorcompliance/service/RiskService.java:84-86 | the store change of a risk calculation, without the report |
| `Engine.ComplianceEngine.AddAuditFlag` | src/main/java/com/vendorcompliance/service/AuditFlagService.java:31-45 | performs `Services.FlagAddition` on the tables |
| `Engine.ComplianceEngine.ResolveAuditFlag` | src/main/java/com/vendorcompliance/service/AuditFlagService.java:48-60 | performs `Services.FlagResolution` on the tables |
| `Engine.ComplianceEngine.GetUnresolvedFlags` | src/main/java/com/vendorcompliance/service/AuditFlagService.java:63-65 | exactly the vendor's open flags, as many as the count reports |
| `Engine.ComplianceEngine.CountUnresolvedFlags` | src/main/java/com/vendorcompliance/service/AuditFlagService.java:68-70 | the number of the vendor's open flags; zero exactly when all its flags are resolved |
| `Engine.ComplianceEngine.CheckExpiredFor` | src/main/java/com/vendorcompliance/service/ScheduledJobService.java:53-81 | one iteration of the expiry loop: the guard, the vendor lookup, the new flag and the rescore |
| `Engine.ComplianceEngine.CheckExpiredForAll` | src/main/java/com/vendorcompliance/service/ScheduledJobService.java:53-81 | the loop over the vendor ids computes `Sweeps.ExpiryPass` and keeps the store invariants (`Valid`, `Evolves`) |
| `Engine.ComplianceEngine.DailyExpiredDocumentCheck` | src/main/java/com/vendorcompliance/service/ScheduledJobService.java:44-84 | performs `Sweeps.ExpirySweep` on the tables and keeps the store invariants |
| `Engine.ComplianceEngine.CheckHighRiskFor` | src/main/java/com/vendorcompliance/service/ScheduledJobService.java:93-103 | one iteration of the high-risk loop for a stored vendor: the guard and the new flag, nothing else changed, store invariants kept |
| `Engine.ComplianceEngine.CheckHighRiskForAll` | src/main/java/com/vendorcompliance/service/ScheduledJobService.java:91-104 | the loop over stored candidates computes `Sweeps.HighRiskPass` and keeps the store invariants |
| `Engine.ComplianceEngine.DailyHighRiskVendorCheck` | src/main/java/com/vendorcompliance/service/ScheduledJobService.java:88-105 | performs `Sweeps.HighRiskSweep` on the tables and keeps the store invariants |

## Left out

- The audit trail that every operation writes through `AuditService` (actor, action, entity, details). It is a write-only log the engine never reads, so the actor is kept only where it lands in a row (`createdBy`, `updatedBy`, `uploadedBy`).
- Authentication, roles, HTTP controllers, request-body validation and the frontend.
- The file bytes of an upload and the `IOException` branch of `uploadDocument`. The model keeps only the file's name, content type and size.
- Scheduling (cron triggers), transactions as a concurrency mechanism, and races between concurrent requests. Each call is atomic, and a failed call leaves the store as it was.
- Java integer widths: ids, scores and counts are unbounded integers. No overflow is modelled.
- `src/main/java/com/vendorcompliance/entity/DocumentType.java`, `VendorStatus.java` and `AuditFlag.java` were not available. `VendorStatus` and the flag record are rebuilt from how the services use them, and the five document type names are placeholders in declaration order.
- The iteration order of the `HashSet` of vendor ids in the expiry job is modelled as order of first occurrence. The result does not depend on it except for the order in which flags receive ids.
- Ties in `ORDER BY ... DESC` are broken in one fixed way (later stored first). The database leaves that order unspecified.
- `Repositories.FindByRiskScoreAtLeast`: `findByRiskScoreGreaterThanEqual` has no `ORDER BY`, so the database may return the candidates in any order. The model returns them in table order, which fixes the order, and so the ids, of the flags the high-risk job adds; which flags are added does not depend on it.
- `findExpiredDocuments` has no `ORDER BY`, so the database may return the expired documents in any order. The model returns them in table order, which fixes the order of the type names in an expiry flag's text; nothing else depends on that order.
- Entities are values, not shared objects, so aliasing between a loaded entity and the stored row is not modelled. `getVendorById` and the response mappings are plain copies.
- Ids are natural numbers, and a row's id is its position plus one.
- `Ledger.Rescore`: a rescore of an unknown vendor is a no-op. The source would throw, but every caller has already found the vendor.
- `Repositories.ByVendorAndType` is modelled but no engine operation calls it, as in the source.
- The clock: `LocalDate.now()` and `LocalDateTime.now()` are the parameters `today` and `now`.

=== FILE: common.dfy ===
/**
 * Shared vocabulary of the risk and audit engine: optional values, the
 * service's two failure kinds, the enumerations the entities use, and the
 * few string operations the services rely on (prefix and substring tests,
 * blank checks, decimal rendering and joining).
 */
module Common {

  datatype Option<+T> = None | Some(value: T) {
    function GetOr(default: T): T {
      match this
      case Some(v) => v
      case None => default
    }
  }

  /** The two exception kinds the services throw: ResourceNotFoundException and BadRequestException. */
  datatype Error = NotFound | BadRequest(message: string)

  datatype Result<+T> = Ok(value: T) | Err(error: Error)

  datatype VendorStatus = Pending | Approved | Rejected

  function StatusName(s: VendorStatus): string {
    match s
    case Pending => "PENDING"
    case Approved => "APPROVED"
    case Rejected => "REJECTED"
  }

  /** The compliance-document categories; every one of them is required of every vendor. */
  datatype DocumentType =
    | BusinessLicense
    | TaxCertificate
    | InsuranceCertificate
    | BankDetails
    | ComplianceCertificate

  /** All categories in declaration order, the order in which an EnumSet iterates them. */
  const AllTypes: seq<DocumentType> :=
    [BusinessLicense, TaxCertificate, InsuranceCertificate, BankDetails, ComplianceCertificate]

  function TypeName(t: DocumentType): string {
    match t
    case BusinessLicense => "BUSINESS_LICENSE"
    case TaxCertificate => "TAX_CERTIFICATE"
    case InsuranceCertificate => "INSURANCE_CERTIFICATE"
    case BankDetails => "BANK_DETAILS"
    case ComplianceCertificate => "COMPLIANCE_CERTIFICATE"
  }

  lemma AllTypesComplete(t: DocumentType)
    ensures t in AllTypes
  {
    match t
    case BusinessLicense => assert AllTypes[0] == t;
    case TaxCertificate => assert AllTypes[1] == t;
    case InsuranceCertificate => assert AllTypes[2] == t;
    case BankDetails => assert AllTypes[3] == t;
    case ComplianceCertificate => assert AllTypes[4] == t;
  }

  // ---------------------------------------------------------------------------
  // Strings

  /** String.startsWith */
  predicate StartsWith(s: string, prefix: string) {
    |prefix| <= |s| && s[..|prefix|] == prefix
  }

  /** `part` occurs in `s` starting at position `i`. */
  predicate OccursAt(s: string, part: string, i: int) {
    0 <= i <= |s| - |part| && s[i..i + |part|] == part
  }

  /** String.contains */
  predicate Contains(s: string, part: string) {
    exists i :: 0 <= i <= |s| - |part| && OccursAt(s, part, i)
  }

  /** Character.isWhitespace: the Unicode space separators except the no-break
      spaces, the line and paragraph separators, and the ASCII controls
      U+0009..U+000D and U+001C..U+001F. */
  predicate IsWhitespace(c: char) {
    || c == ' ' || c == '\t' || c == '\n' || c == '\U{000B}' || c == '\U{000C}' || c == '\r'
    || ('\U{001C}' <= c <= '\U{001F}')
    || c == '\U{1680}' || ('\U{2000}' <= c <= '\U{2006}') || ('\U{2008}' <= c <= '\U{200A}')
    || c == '\U{2028}' || c == '\U{2029}' || c == '\U{205F}' || c == '\U{3000}'
  }

  /** String.isBlank: empty or made of whitespace only. */
  predicate IsBlank(s: string) {
    forall i :: 0 <= i < |s| ==> IsWhitespace(s[i])
  }

  /** A nullable String that is non-null and not blank. */
  predicate HasText(s: Option<string>) {
    s.Some? && !IsBlank(s.value)
  }

  predicate IsDigit(c: char) {
    '0' <= c <= '9'
  }

  /** Decimal rendering of a natural number, most significant digit first, no leading zeros. */
  function NatToDecimal(n: nat): (s: string)
    ensures |s| >= 1
    ensures forall i :: 0 <= i < |s| ==> IsDigit(s[i])
    ensures |s| > 1 ==> s[0] != '0'
    decreases n
  {
    if n < 10 then ["0123456789"[n]]
    else NatToDecimal(n / 10) + ["0123456789"[n % 10]]
  }

  function DigitValue(c: char): nat
    requires IsDigit(c)
  {
    (c as int) - ('0' as int)
  }

  /** The value a string of decimal digits denotes. */
  function DecimalValue(s: string): nat
    requires forall i :: 0 <= i < |s| ==> IsDigit(s[i])
  {
    if s == [] then 0
    else DecimalValue(s[..|s| - 1]) * 10 + DigitValue(s[|s| - 1])
  }

  lemma {:induction false} DecimalRoundTrip(n: nat)
    ensures DecimalValue(NatToDecimal(n)) == n
    decreases n
  {
    var s := NatToDecimal(n);
    if n < 10 {
      assert s[..0] == [];
    } else {
      var hi := NatToDecimal(n / 10);
      DecimalRoundTrip(n / 10);
      assert s == hi + ["0123456789"[n % 10]];
      assert s[..|s| - 1] == hi;
    }
  }

  /** Integer.toString: a minus sign before the digits of a negative number. */
  function IntToDecimal(i: int): string {
    if i < 0 then "-" + NatToDecimal(-i) else NatToDecimal(i)
  }

  /** The text holds only digits and possibly a minus sign. */
  lemma IntToDecimalChars(i: int)
    ensures forall k :: 0 <= k < |IntToDecimal(i)| ==> IsDigit(IntToDecimal(i)[k]) || IntToDecimal(i)[k] == '-'
  {
    var digits := NatToDecimal(if i < 0 then -i else i);
    if i < 0 {
      assert forall k :: 1 <= k < |IntToDecimal(i)| ==> IntToDecimal(i)[k] == digits[k - 1];
    }
  }

  /** Collectors.joining(separator) over a list of strings. */
  function Join(parts: seq<string>, separator: string): string
  {
    if parts == [] then ""
    else if |parts| == 1 then parts[0]
    else parts[0] + separator + Join(parts[1..], separator)
  }
}

=== FILE: engine.dfy ===
/**
 * The services of the risk and audit engine as one object. VendorService,
 * RiskService, VendorDocumentService, AuditFlagService and
 * ScheduledJobService call each other (the risk scorer and the document
 * service even depend on each other); here they are the methods of one
 * class that owns the three tables. Every method that changes the tables is
 * proved to compute the transaction of the Services module (or the sweep of
 * the Sweeps module, or one step or loop of it) and to keep `Valid()`.
 */
module Engine {
  import opened Common
  import opened Seqs
  import opened Entities
  import opened Repositories
  import opened Risk
  import opened Ledger
  import opened Sweeps
  import opened Services

  class ComplianceEngine {
    var vendors: seq<Vendor>
    var documents: seq<Document>
    var flags: seq<AuditFlag>

    function Snapshot(): Store
      reads this
    {
      Store(vendors, documents, flags)
    }

    ghost predicate Valid()
      reads this
    {
      WellFormed(Snapshot())
    }

    constructor ()
      ensures Valid()
      ensures vendors == [] && documents == [] && flags == []
    {
      vendors, documents, flags := [], [], [];
    }

    // -------------------------------------------------------------------------
    // VendorService

    /** findVendorOrThrow: the stored vendor with this id, or not found. */
    method FindVendorOrThrow(vendorId: nat) returns (r: Result<Vendor>)
      requires Valid()
      ensures r.Ok? <==> exists v :: v in vendors && v.id == vendorId
      ensures r.Ok? <==> 1 <= vendorId <= |vendors|
      ensures r.Ok? ==> r.value in vendors && r.value.id == vendorId && r.value == vendors[vendorId - 1]
      ensures r.Err? ==> r.error == NotFound
    {
      FindVendorById(vendors, vendorId);
      var found := FindVendor(vendors, vendorId);
      if found.None? {
        return Err(NotFound);
      }
      return Ok(found.value);
    }

    method OnboardVendor(request: OnboardingRequest, actor: string, now: int) returns (r: Result<Vendor>)
      requires Valid()
      modifies this
      ensures Valid() && Evolves(old(Snapshot()), Snapshot())
      ensures Outcome(r, Snapshot()) == Onboarding(old(Snapshot()), request, actor, now)
    {
      OnboardingEvolves(Snapshot(), request, actor, now);
      if ExistsByRegistrationNumber(vendors, request.registrationNumber) {
        return Err(BadRequest(DuplicateRegistration));
      }
      var vendor := NewVendor(|vendors| + 1, request, actor, now);
      vendors := vendors + [vendor];
      return Ok(vendor);
    }

    /** listVendors: every vendor, or those with the given status, newest first. */
    method ListVendors(status: Option<VendorStatus>) returns (r: seq<Vendor>)
      ensures status.None? ==> multiset(r) == multiset(vendors)
      ensures status.Some? ==> forall v :: v in r <==> v in vendors && v.status == status.value
      ensures status.Some? ==> multiset(r) == multiset(Filter(vendors, HasStatus(status.value)))
      ensures NonIncreasing(r, CreatedAt)
    {
      if status.None? {
        r := FindAllNewestFirst(vendors);
      } else {
        r := FindByStatusNewestFirst(vendors, status.value);
      }
    }

    /**
     * updateStatus: the status machine shared by approve, reject and review.
     * It is private to the service and its callers only ever ask for APPROVED or REJECTED.
     */
    method UpdateStatus(vendorId: nat, target: VendorStatus, comments: Option<string>, actor: string, now: int)
      returns (r: Result<Vendor>)
      requires Valid() && target != Pending
      modifies this
      ensures Valid() && Evolves(old(Snapshot()), Snapshot())
      ensures Outcome(r, Snapshot()) == StatusChange(old(Snapshot()), vendorId, target, comments, actor, now)
    {
      StatusChangeEvolves(Snapshot(), vendorId, target, comments, actor, now);
      var found := FindVendorOrThrow(vendorId);
      if found.Err? {
        return Err(found.error);
      }
      var vendor := found.value;
      if vendor.status == target {
        return Err(BadRequest(StatusPrefix + StatusName(target)));
      }
      var changed := vendor.(status := target, updatedBy := actor,
                             onboardingNotes := if HasText(comments) then comments else vendor.onboardingNotes);
      var saved := Saved(vendor, changed, now);
      vendors := vendors[vendorId - 1 := saved];
      return Ok(saved);
    }

    method ApproveVendor(vendorId: nat, comments: Option<string>, actor: string, now: int) returns (r: Result<Vendor>)
      requires Valid()
      modifies this
      ensures Valid() && Evolves(old(Snapshot()), Snapshot())
      ensures Outcome(r, Snapshot()) == StatusChange(old(Snapshot()), vendorId, Approved, comments, actor, now)
    {
      r := UpdateStatus(vendorId, Approved, comments, actor, now);
    }

    method RejectVendor(vendorId: nat, comments: Option<string>, actor: string, now: int) returns (r: Result<Vendor>)
      requires Valid()
      modifies this
      ensures Valid() && Evolves(old(Snapshot()), Snapshot())
      ensures Outcome(r, Snapshot()) == StatusChange(old(Snapshot()), vendorId, Rejected, comments, actor, now)
    {
      r := UpdateStatus(vendorId, Rejected, comments, actor, now);
    }

    /** reviewVendor: approve on an APPROVE decision, reject otherwise. */
    method ReviewVendor(vendorId: nat, decision: Option<Decision>, comments: Option<string>, actor: string, now: int)
      returns (r: Result<Vendor>)
      requires Valid()
      modifies this
      ensures Valid() && Evolves(old(Snapshot()), Snapshot())
      ensures Outcome(r, Snapshot()) == StatusChange(old(Snapshot()), vendorId, ReviewTarget(decision), comments, actor, now)
    {
      if decision == Some(Approve) {
        r := ApproveVendor(vendorId, comments, actor, now);
      } else {
        r := RejectVendor(vendorId, comments, actor, now);
      }
    }

    method UpdateRiskScore(vendorId: nat, score: int, now: int) returns (r: Result<()>)
      requires Valid()
      modifies this
      ensures Valid() && Evolves(old(Snapshot()), Snapshot())
      ensures Outcome(r, Snapshot()) == RiskUpdate(old(Snapshot()), vendorId, score, now)
    {
      var found := FindVendorOrThrow(vendorId);
      if found.Err? {
        assert documents[..|documents|] == documents;
        return Err(found.error);
      }
      var vendor := found.value;
      var saved := Saved(vendor, vendor.(riskScore := score, lastRiskCalculatedAt := Some(now)), now);
      assert saved == WithRiskScore(vendor, score, now);
      ReplaceVendorEvolves(Snapshot(), vendorId - 1, saved);
      vendors := vendors[vendorId - 1 := saved];
      return Ok(());
    }

    // -------------------------------------------------------------------------
    // VendorDocumentService

    /** listVendorDocumentsForRisk: the vendor's documents, newest upload first. */
    method ListVendorDocumentsForRisk(vendorId: nat) returns (r: seq<Document>)
      ensures forall d :: d in r <==> d in documents && d.vendorId == vendorId
      ensures NonIncreasing(r, UploadedAt)
      ensures r == ByVendorNewestFirst(documents, vendorId)
    {
      r := ByVendorNewestFirst(documents, vendorId);
    }

    /** listVendorDocuments: not found for an unknown vendor, else the responses, newest upload first. */
    method ListVendorDocuments(vendorId: nat, today: int) returns (r: Result<seq<DocumentView>>)
      requires Valid()
      ensures r.Ok? <==> 1 <= vendorId <= |vendors|
      ensures r.Err? ==> r.error == NotFound
      ensures r.Ok? ==>
        && |r.value| == |ByVendorNewestFirst(documents, vendorId)|
        && forall k :: 0 <= k < |r.value| ==>
             r.value[k] == ToResponse(ByVendorNewestFirst(documents, vendorId)[k], today)
             && r.value[k].expired == (ByVendorNewestFirst(documents, vendorId)[k].expiryDate < today)
    {
      var found := FindVendorOrThrow(vendorId);
      if found.Err? {
        return Err(found.error);
      }
      var listed := ListVendorDocumentsForRisk(vendorId);
      return Ok(MapSeq(listed, (d: Document) => ToResponse(d, today)));
    }

    method UploadDocument(vendorId: nat, docType: Option<DocumentType>, file: Option<UploadedFile>,
                          expiryDate: Option<int>, actor: string, today: int, now: int)
      returns (r: Result<DocumentView>)
      requires Valid()
      modifies this
      ensures Valid() && Evolves(old(Snapshot()), Snapshot())
      ensures Outcome(r, Snapshot()) == DocumentUpload(old(Snapshot()), vendorId, docType, file, expiryDate, actor, today, now)
    {
      ghost var s0 := Snapshot();
      DocumentUploadEvolves(s0, vendorId, docType, file, expiryDate, actor, today, now);
      var found := FindVendorOrThrow(vendorId);
      if found.Err? {
        return Err(found.error);
      }
      if file.None? || file.value.size == 0 {
        return Err(BadRequest(FileRequired));
      }
      if docType.None? {
        return Err(BadRequest(TypeRequired));
      }
      if expiryDate.None? {
        return Err(BadRequest(ExpiryRequired));
      }
      var document := NewDocument(|documents| + 1, vendorId, docType.value, file.value, expiryDate.value, actor, now);
      SaveDocument(document);
      var rescored := RecalculateRiskForVendor(vendorId, today, now);
      return Ok(ToResponse(document, today));
    }

    /** vendorDocumentRepository.save of a new document row of a stored vendor. */
    method SaveDocument(document: Document)
      requires Valid() && document.id == |documents| + 1 && 1 <= document.vendorId <= |vendors|
      modifies this
      ensures Valid() && Evolves(old(Snapshot()), Snapshot())
      ensures Snapshot() == AddDocument(old(Snapshot()), document)
    {
      AddDocumentEvolves(Snapshot(), document);
      documents := documents + [document];
    }

    // -------------------------------------------------------------------------
    // RiskService

    /**
     * calculateRiskScore: the latest document per type, the missing and the
     * expired required types, the open flags, the score written back.
     */
    method CalculateRiskScore(vendorId: nat, today: int, now: int) returns (r: Result<RiskReport>)
      requires Valid()
      modifies this
      ensures Valid() && Evolves(old(Snapshot()), Snapshot())
      ensures Outcome(r, Snapshot()) == RiskCalculation(old(Snapshot()), vendorId, today, now)
    {
      RiskCalculationEvolves(Snapshot(), vendorId, today, now);
      var found := FindVendorOrThrow(vendorId);
      if found.Err? {
        return Err(found.error);
      }
      var listed := ListVendorDocumentsForRisk(vendorId);
      var latest := MapLatestDocuments(listed);
      var missing, expired := ClassifyRequiredTypes(latest, today);
      var unresolved := CountUnresolvedFlags(vendorId);
      var score := RiskScore(|missing|, |expired|, unresolved);
      var written := UpdateRiskScore(vendorId, score, now);
      return Ok(RiskReport(vendorId, score, ToRiskLevel(score), missing, expired, now));
    }

    /** recalculateRiskForVendor: the scorer with its response dropped. */
    method RecalculateRiskForVendor(vendorId: nat, today: int, now: int) returns (r: Result<()>)
      requires Valid()
      modifies this
      ensures Valid() && Evolves(old(Snapshot()), Snapshot())
      ensures r.Ok? <==> RiskCalculation(old(Snapshot()), vendorId, today, now).result.Ok?
      ensures r.Err? ==> r.error == NotFound
      ensures Snapshot() == RiskCalculation(old(Snapshot()), vendorId, today, now).store
    {
      var report := CalculateRiskScore(vendorId, today, now);
      if report.Err? {
        return Err(report.error);
      }
      return Ok(());
    }

    // -------------------------------------------------------------------------
    // AuditFlagService

    method AddAuditFlag(vendorId: nat, description: string, today: int, now: int) returns (r: Result<AuditFlag>)
      requires Valid()
      modifies this
      ensures Valid() && Evolves(old(Snapshot()), Snapshot())
      ensures Outcome(r, Snapshot()) == FlagAddition(old(Snapshot()), vendorId, description, today, now)
    {
      ghost var s0 := Snapshot();
      FlagAdditionEvolves(s0, vendorId, description, today, now);
      var found := FindVendorOrThrow(vendorId);
      if found.Err? {
        return Err(found.error);
      }
      var flag := SaveNewFlag(vendorId, description);
      var rescored := RecalculateRiskForVendor(vendorId, today, now);
      assert Snapshot() == Rescore(AddFlag(s0, vendorId, description), vendorId, today, now);
      return Ok(flag);
    }

    /** auditFlagRepository.save of a new open flag for a stored vendor. */
    method SaveNewFlag(vendorId: nat, description: string) returns (flag: AuditFlag)
      requires Valid() && 1 <= vendorId <= |vendors|
      modifies this
      ensures Valid() && Evolves(old(Snapshot()), Snapshot())
      ensures Snapshot() == AddFlag(old(Snapshot()), vendorId, description)
      ensures flag == NewFlag(|old(flags)| + 1, vendorId, description)
    {
      AddFlagEvolves(Snapshot(), vendorId, description);
      flag := NewFlag(|flags| + 1, vendorId, description);
      flags := flags + [flag];
    }

    method ResolveAuditFlag(flagId: nat, today: int, now: int) returns (r: Result<AuditFlag>)
      requires Valid()
      modifies this
      ensures Valid() && Evolves(old(Snapshot()), Snapshot())
      ensures Outcome(r, Snapshot()) == FlagResolution(old(Snapshot()), flagId, today, now)
    {
      ghost var s0 := Snapshot();
      FlagResolutionEvolves(s0, flagId, today, now);
      if !(1 <= flagId <= |flags|) {
        return Err(NotFound);
      }
      var flag := flags[flagId - 1];
      var saved := SaveResolvedFlag(flagId, now);
      var rescored := RecalculateRiskForVendor(flag.vendorId, today, now);
      assert Snapshot() == Rescore(ResolveFlag(s0, flagId, now), flag.vendorId, today, now);
      return Ok(saved);
    }

    /** The flag row marked resolved at `now` and saved back in place. */
    method SaveResolvedFlag(flagId: nat, now: int) returns (saved: AuditFlag)
      requires Valid() && 1 <= flagId <= |flags|
      modifies this
      ensures Valid() && Evolves(old(Snapshot()), Snapshot())
      ensures Snapshot() == ResolveFlag(old(Snapshot()), flagId, now)
      ensures saved == Resolved(old(flags)[flagId - 1], now)
    {
      ResolveEvolves(Snapshot(), flagId, now);
      saved := flags[flagId - 1].(resolved := true, resolvedAt := Some(now));
      flags := flags[flagId - 1 := saved];
    }

    /** getUnresolvedFlags: the vendor's open flags, in table order. */
    method GetUnresolvedFlags(vendorId: nat) returns (r: seq<AuditFlag>)
      ensures forall f :: f in r <==> f in flags && f.vendorId == vendorId && !f.resolved
      ensures |r| == CountUnresolvedByVendor(flags, vendorId)
    {
      CountMatchesQuery(flags, vendorId);
      r := UnresolvedByVendor(flags, vendorId);
    }

    /** countUnresolvedFlags */
    method CountUnresolvedFlags(vendorId: nat) returns (n: nat)
      ensures n == CountUnresolvedByVendor(flags, vendorId) == |UnresolvedByVendor(flags, vendorId)|
      ensures n == 0 <==> forall f :: f in flags && f.vendorId == vendorId ==> f.resolved
    {
      CountMatchesQuery(flags, vendorId);
      CountZeroIffNoneOpen(flags, vendorId);
      n := CountUnresolvedByVendor(flags, vendorId);
    }

    // -------------------------------------------------------------------------
    // ScheduledJobService

    /** One iteration of dailyExpiredDocumentCheck's loop over vendor ids. */
    method CheckExpiredFor(expired: seq<Document>, vendorId: nat, today: int, now: int)
      requires Valid()
      modifies this
      ensures Valid() && Evolves(old(Snapshot()), Snapshot())
      ensures Snapshot() == ExpiryStep(old(Snapshot()), expired, vendorId, today, now)
    {
      ghost var s0 := Snapshot();
      ExpiryStepEvolves(s0, expired, vendorId, today, now);
      var description := ExpiryDescription(expired, vendorId);
      var open := GetUnresolvedFlags(vendorId);
      var flagAlreadyExists := exists f :: f in open && StartsWith(f.description, ExpiryMarker);
      assert flagAlreadyExists == HasExpiryFlag(flags, vendorId);
      if !flagAlreadyExists {
        var vendor := FindVendor(vendors, vendorId);
        if vendor.Some? {
          var flag := SaveNewFlag(vendorId, description);
          var rescored := RecalculateRiskForVendor(vendorId, today, now);
        }
      }
    }

    /** dailyExpiredDocumentCheck's loop: one `CheckExpiredFor` per vendor id, in order. */
    method CheckExpiredForAll(expired: seq<Document>, ids: seq<nat>, today: int, now: int)
      requires Valid()
      modifies this
      ensures Valid() && Evolves(old(Snapshot()), Snapshot())
      ensures Snapshot() == ExpiryPass(old(Snapshot()), expired, ids, today, now)
    {
      ghost var s0 := Snapshot();
      for i := 0 to |ids|
        invariant Snapshot() == ExpiryPass(s0, expired, ids[..i], today, now)
      {
        assert ids[..i + 1][..i] == ids[..i];
        ExpiryPassEvolves(s0, expired, ids[..i], today, now);
        CheckExpiredFor(expired, ids[i], today, now);
      }
      assert ids[..|ids|] == ids;
      ExpiryPassEvolves(s0, expired, ids, today, now);
    }

    /**
     * dailyExpiredDocumentCheck: for each vendor with a document expired on or
     * before `today`, unless it has an open expiry flag, one new flag and a rescore.
     */
    method DailyExpiredDocumentCheck(today: int, now: int)
      requires Valid()
      modifies this
      ensures Valid() && Evolves(old(Snapshot()), Snapshot())
      ensures Snapshot() == ExpirySweep(old(Snapshot()), today, now)
    {
      ExpirySweepEvolves(Snapshot(), today, now);
      var expired := ExpiredDocuments(vendors, documents, today);
      if expired != [] {
        var ids := VendorsWithExpired(expired);
        CheckExpiredForAll(expired, ids, today, now);
      }
    }

    /** One iteration of dailyHighRiskVendorCheck's loop over the vendors at or above the threshold. */
    method CheckHighRiskFor(vendor: Vendor)
      requires Valid() && 1 <= vendor.id <= |vendors|
      modifies this
      ensures Valid() && Evolves(old(Snapshot()), Snapshot())
      ensures vendors == old(vendors) && documents == old(documents)
      ensures flags == HighRiskStep(old(flags), vendor)
    {
      var open := GetUnresolvedFlags(vendor.id);
      var flagAlreadyExists := exists f :: f in open && Contains(f.description, HighRiskMarker);
      assert flagAlreadyExists == HasHighRiskFlag(flags, vendor.id);
      if !flagAlreadyExists {
        AddFlagEvolves(Snapshot(), vendor.id, HighRiskDescription(vendor.riskScore));
        flags := flags + [NewFlag(|flags| + 1, vendor.id, HighRiskDescription(vendor.riskScore))];
      }
    }

    /** dailyHighRiskVendorCheck's loop: one `CheckHighRiskFor` per candidate, in order. */
    method CheckHighRiskForAll(candidates: seq<Vendor>)
      requires Valid() && forall c :: c in candidates ==> 1 <= c.id <= |vendors|
      modifies this
      ensures Valid() && Evolves(old(Snapshot()), Snapshot())
      ensures vendors == old(vendors) && documents == old(documents)
      ensures flags == HighRiskPass(old(flags), candidates)
    {
      for i := 0 to |candidates|
        invariant Valid() && Evolves(old(Snapshot()), Snapshot())
        invariant vendors == old(vendors) && documents == old(documents)
        invariant flags == HighRiskPass(old(flags), candidates[..i])
      {
        assert candidates[..i + 1][..i] == candidates[..i];
        ghost var before := Snapshot();
        CheckHighRiskFor(candidates[i]);
        EvolvesTransitive(old(Snapshot()), before, Snapshot());
      }
      assert candidates[..|candidates|] == candidates;
    }

    /**
     * dailyHighRiskVendorCheck: for each vendor whose score is at least the
     * threshold and that has no open flag mentioning "High risk", one new flag.
     */
    method DailyHighRiskVendorCheck()
      requires Valid()
      modifies this
      ensures Valid() && Evolves(old(Snapshot()), Snapshot())
      ensures Snapshot() == HighRiskSweep(old(Snapshot()))
    {
      HighRiskSweepEvolves(Snapshot());
      var highRiskVendors := FindByRiskScoreAtLeast(vendors, HighRiskThreshold);
      CheckHighRiskForAll(highRiskVendors);
    }
  }
}

=== FILE: entities.dfy ===
/**
 * The three persistent entities of the engine as records: Vendor,
 * VendorDocument and AuditFlag. A record stands for one row; the services
 * change a row by storing an updated record in its place. The JPA lifecycle
 * hooks become the functions that build a record at persist time
 * (`NewVendor`, `NewDocument`) and the one that stamps an update (`Saved`).
 * Timestamps and dates are integers supplied by the caller.
 */
module Entities {
  import opened Common

  /** The fields of the onboarding request the service copies onto the new vendor. */
  datatype OnboardingRequest = OnboardingRequest(
    legalName: string,
    tradingName: Option<string>,
    registrationNumber: string,
    email: string,
    phone: Option<string>,
    address: Option<string>,
    onboardingNotes: Option<string>)

  datatype Vendor = Vendor(
    id: nat,
    legalName: string,
    tradingName: Option<string>,
    registrationNumber: string,
    email: string,
    phone: Option<string>,
    address: Option<string>,
    status: VendorStatus,
    riskScore: int,
    lastRiskCalculatedAt: Option<int>,
    onboardingNotes: Option<string>,
    createdBy: string,
    updatedBy: string,
    createdAt: int,
    updatedAt: int)

  function CreatedAt(v: Vendor): int { v.createdAt }

  /**
   * A vendor as onboarding saves it: the request's fields, the field defaults
   * (status PENDING, risk score 0, no risk calculation yet), the actor as
   * creator and updater, and both timestamps set by the persist hook.
   */
  function NewVendor(id: nat, request: OnboardingRequest, actor: string, now: int): (v: Vendor)
  {
    Vendor(
      id := id,
      legalName := request.legalName,
      tradingName := request.tradingName,
      registrationNumber := request.registrationNumber,
      email := request.email,
      phone := request.phone,
      address := request.address,
      status := Pending,
      riskScore := 0,
      lastRiskCalculatedAt := None,
      onboardingNotes := request.onboardingNotes,
      createdBy := actor,
      updatedBy := actor,
      createdAt := now,
      updatedAt := now)
  }

  /**
   * Saving a vendor whose fields were changed from `before` to `after`: the
   * update hook runs only when the row is dirty, and then sets only `updatedAt`.
   */
  function Saved(before: Vendor, after: Vendor, now: int): Vendor {
    if after == before then before else after.(updatedAt := now)
  }

  /** The fields of a vendor that no operation has a setter call for, `createdAt` included. */
  predicate SameIdentity(a: Vendor, b: Vendor) {
    && a.id == b.id
    && a.legalName == b.legalName
    && a.tradingName == b.tradingName
    && a.registrationNumber == b.registrationNumber
    && a.email == b.email
    && a.phone == b.phone
    && a.address == b.address
    && a.createdBy == b.createdBy
    && a.createdAt == b.createdAt
  }

  /** `b` differs from `a` at most in the risk score, the time of its calculation and `updatedAt`. */
  predicate OnlyRiskChanged(a: Vendor, b: Vendor) {
    b == a.(riskScore := b.riskScore, lastRiskCalculatedAt := b.lastRiskCalculatedAt, updatedAt := b.updatedAt)
  }

  /** VendorService.updateRiskScore applied to one record. */
  function WithRiskScore(v: Vendor, score: int, now: int): (r: Vendor)
    ensures r.riskScore == score && r.lastRiskCalculatedAt == Some(now)
    ensures OnlyRiskChanged(v, r) && SameIdentity(v, r) && r.status == v.status
    ensures r.updatedAt == v.updatedAt || r.updatedAt == now
  {
    Saved(v, v.(riskScore := score, lastRiskCalculatedAt := Some(now)), now)
  }

  /** VendorService.updateStatus applied to one record. */
  function WithStatus(v: Vendor, target: VendorStatus, comments: Option<string>, actor: string, now: int): Vendor {
    Saved(v, v.(status := target,
                updatedBy := actor,
                onboardingNotes := if HasText(comments) then comments else v.onboardingNotes), now)
  }

  lemma StatusChangeFrame(v: Vendor, target: VendorStatus, comments: Option<string>, actor: string, now: int)
    requires v.status != target
    ensures var r := WithStatus(v, target, comments, actor, now);
      && r.status == target && r.updatedBy == actor && r.updatedAt == now
      && (HasText(comments) ==> r.onboardingNotes == comments)
      && (!HasText(comments) ==> r.onboardingNotes == v.onboardingNotes)
      && r.riskScore == v.riskScore && r.lastRiskCalculatedAt == v.lastRiskCalculatedAt
      && SameIdentity(v, r)
  {
  }

  /** The uploaded multipart file as the service sees it; `size == 0` is an empty file. */
  datatype UploadedFile = UploadedFile(originalFilename: Option<string>, contentType: Option<string>, size: nat)

  const DefaultFileName := "document.bin"
  const DefaultMimeType := "application/octet-stream"

  datatype Document = Document(
    id: nat,
    vendorId: nat,
    docType: DocumentType,
    fileName: string,
    mimeType: string,
    contentLength: nat,
    expiryDate: int,
    uploadedBy: string,
    uploadedAt: int)

  function UploadedAt(d: Document): int { d.uploadedAt }

  /** A document as the upload saves it; the persist hook stamps `uploadedAt` once. */
  function NewDocument(id: nat, vendorId: nat, docType: DocumentType, file: UploadedFile,
                       expiryDate: int, actor: string, now: int): (d: Document)
  {
    Document(
      id := id,
      vendorId := vendorId,
      docType := docType,
      fileName := file.originalFilename.GetOr(DefaultFileName),
      mimeType := file.contentType.GetOr(DefaultMimeType),
      contentLength := file.size,
      expiryDate := expiryDate,
      uploadedBy := actor,
      uploadedAt := now)
  }

  lemma NewDocumentDefaults(id: nat, vendorId: nat, docType: DocumentType, file: UploadedFile,
                            expiryDate: int, actor: string, now: int)
    ensures var d := NewDocument(id, vendorId, docType, file, expiryDate, actor, now);
      && (file.originalFilename.None? ==> d.fileName == "document.bin")
      && (file.originalFilename.Some? ==> d.fileName == file.originalFilename.value)
      && (file.contentType.None? ==> d.mimeType == "application/octet-stream")
      && (file.contentType.Some? ==> d.mimeType == file.contentType.value)
      && d.vendorId == vendorId && d.docType == docType && d.expiryDate == expiryDate
      && d.uploadedBy == actor && d.uploadedAt == now
  {
  }

  /** The document response: a field copy plus the flag `expiryDate < today`. */
  datatype DocumentView = DocumentView(
    id: nat,
    docType: DocumentType,
    fileName: string,
    mimeType: string,
    expiryDate: int,
    expired: bool,
    uploadedBy: string,
    uploadedAt: int)

  function ToResponse(d: Document, today: int): DocumentView {
    DocumentView(d.id, d.docType, d.fileName, d.mimeType, d.expiryDate, d.expiryDate < today, d.uploadedBy, d.uploadedAt)
  }

  datatype AuditFlag = AuditFlag(id: nat, vendorId: nat, description: string, resolved: bool, resolvedAt: Option<int>)

  /** A flag as addAuditFlag and the sweeps create it: unresolved, never resolved before. */
  function NewFlag(id: nat, vendorId: nat, description: string): AuditFlag {
    AuditFlag(id, vendorId, description, false, None)
  }

  /** resolveAuditFlag applied to one flag, whether or not it was resolved already. */
  function Resolved(f: AuditFlag, now: int): AuditFlag {
    f.(resolved := true, resolvedAt := Some(now))
  }
}

=== FILE: ledger.dfy ===
/**
 * The persistent state of the engine as one value (the three tables), the
 * invariants the services maintain on it, and the state changes that the
 * services compose: a rescore of one vendor, a new audit flag, a resolved
 * audit flag and a new document.
 */
module Ledger {
  import opened Common
  import opened Seqs
  import opened Entities
  import opened Repositories
  import opened Risk

  datatype Store = Store(vendors: seq<Vendor>, documents: seq<Document>, flags: seq<AuditFlag>)

  /** The unique constraint on the registration-number column. */
  predicate UniqueRegistrationNumbers(vendors: seq<Vendor>) {
    forall i, j :: 0 <= i < j < |vendors| ==> vendors[i].registrationNumber != vendors[j].registrationNumber
  }

  /**
   * Keys are positions, every document and flag belongs to a stored vendor,
   * registration numbers are unique, and a flag has a resolution time exactly
   * when it is resolved.
   */
  ghost predicate WellFormed(s: Store) {
    && VendorIdsArePositions(s.vendors)
    && DocumentIdsArePositions(s.documents)
    && FlagIdsArePositions(s.flags)
    && (forall d :: d in s.documents ==> 1 <= d.vendorId <= |s.vendors|)
    && (forall f :: f in s.flags ==> 1 <= f.vendorId <= |s.vendors|)
    && UniqueRegistrationNumbers(s.vendors)
    && (forall f :: f in s.flags ==> (f.resolved <==> f.resolvedAt.Some?))
  }

  /** What can change about stored rows over time. */
  ghost predicate VendorsEvolve(before: seq<Vendor>, after: seq<Vendor>) {
    |before| <= |after| && forall k :: 0 <= k < |before| ==> SameIdentity(before[k], after[k])
  }

  /** Documents are only ever appended; a stored document never changes. */
  ghost predicate DocumentsEvolve(before: seq<Document>, after: seq<Document>) {
    |before| <= |after| && after[..|before|] == before
  }

  /** Flags are only appended, keep owner and text, and never go back to unresolved. */
  ghost predicate FlagsEvolve(before: seq<AuditFlag>, after: seq<AuditFlag>) {
    && |before| <= |after|
    && forall k :: 0 <= k < |before| ==>
         && after[k].id == before[k].id
         && after[k].vendorId == before[k].vendorId
         && after[k].description == before[k].description
         && (before[k].resolved ==> after[k].resolved)
  }

  ghost predicate Evolves(before: Store, after: Store) {
    VendorsEvolve(before.vendors, after.vendors)
      && DocumentsEvolve(before.documents, after.documents)
      && FlagsEvolve(before.flags, after.flags)
  }

  lemma EvolvesTransitive(a: Store, b: Store, c: Store)
    requires Evolves(a, b) && Evolves(b, c)
    ensures Evolves(a, c)
  {
    assert c.documents[..|a.documents|] == c.documents[..|b.documents|][..|a.documents|];
  }

  // ---------------------------------------------------------------------------
  // The scorer on the store

  /** calculateRiskScore's response for a stored vendor, read from the current tables. */
  function Assess(s: Store, vendorId: nat, today: int, now: int): RiskReport {
    Evaluate(vendorId, ByVendorNewestFirst(s.documents, vendorId), CountUnresolvedByVendor(s.flags, vendorId), today, now)
  }

  /** The score write-back of calculateRiskScore; an unknown vendor leaves the store as it is. */
  function Rescore(s: Store, vendorId: nat, today: int, now: int): (r: Store)
    ensures r.documents == s.documents && r.flags == s.flags && |r.vendors| == |s.vendors|
    ensures forall k :: 0 <= k < |s.vendors| && k != vendorId - 1 ==> r.vendors[k] == s.vendors[k]
    ensures forall k :: 0 <= k < |s.vendors| ==> OnlyRiskChanged(s.vendors[k], r.vendors[k])
    ensures 1 <= vendorId <= |s.vendors| ==>
      && OnlyRiskChanged(s.vendors[vendorId - 1], r.vendors[vendorId - 1])
      && r.vendors[vendorId - 1].riskScore == Assess(s, vendorId, today, now).riskScore
      && r.vendors[vendorId - 1].lastRiskCalculatedAt == Some(now)
    ensures !(1 <= vendorId <= |s.vendors|) ==> r == s
  {
    if 1 <= vendorId <= |s.vendors| then WithVendorScore(s, vendorId, Assess(s, vendorId, today, now).riskScore, now)
    else s
  }

  /** The stored vendor `vendorId` after updateRiskScore with `score`; every other row is kept. */
  function WithVendorScore(s: Store, vendorId: nat, score: int, now: int): (r: Store)
    requires 1 <= vendorId <= |s.vendors|
    ensures r.documents == s.documents && r.flags == s.flags && |r.vendors| == |s.vendors|
    ensures forall k :: 0 <= k < |s.vendors| && k != vendorId - 1 ==> r.vendors[k] == s.vendors[k]
    ensures forall k :: 0 <= k < |s.vendors| ==> OnlyRiskChanged(s.vendors[k], r.vendors[k])
    ensures r.vendors[vendorId - 1].riskScore == score && r.vendors[vendorId - 1].lastRiskCalculatedAt == Some(now)
  {
    s.(vendors := s.vendors[vendorId - 1 := WithRiskScore(s.vendors[vendorId - 1], score, now)])
  }

  /**
   * Scoring twice with nothing in between: the second response has the same
   * score, level and lists, and the second write-back changes nothing.
   */
  lemma RescoreIdempotent(s: Store, vendorId: nat, today: int, now: int, later: int)
    ensures var r := Rescore(s, vendorId, today, now);
      && Assess(r, vendorId, today, later) == Assess(s, vendorId, today, later)
      && Rescore(r, vendorId, today, now) == r
  {
    var r := Rescore(s, vendorId, today, now);
    AssessReadsTables(s, r, vendorId, today, later);
    if 1 <= vendorId <= |s.vendors| {
      var v := r.vendors[vendorId - 1];
      AssessReadsTables(s, r, vendorId, today, now);
      RewriteSameScore(v, now);
      assert Rescore(r, vendorId, today, now) == WithVendorScore(r, vendorId, v.riskScore, now);
      assert r.vendors[vendorId - 1 := v] == r.vendors;
    }
  }

  /** The assessment reads only the document and flag tables. */
  lemma AssessReadsTables(s: Store, r: Store, vendorId: nat, today: int, now: int)
    requires r.documents == s.documents && r.flags == s.flags
    ensures Assess(r, vendorId, today, now) == Assess(s, vendorId, today, now)
  {
  }

  /** Writing back the score a vendor already has at the time it was computed is a clean save. */
  lemma RewriteSameScore(v: Vendor, now: int)
    requires v.lastRiskCalculatedAt == Some(now)
    ensures WithRiskScore(v, v.riskScore, now) == v
  {
  }

  /** Replacing a vendor row by one with the same identity keeps the invariants. */
  lemma ReplaceVendorEvolves(s: Store, k: nat, v: Vendor)
    requires WellFormed(s) && k < |s.vendors| && SameIdentity(s.vendors[k], v)
    ensures WellFormed(s.(vendors := s.vendors[k := v]))
    ensures Evolves(s, s.(vendors := s.vendors[k := v]))
  {
    var r := s.(vendors := s.vendors[k := v]);
    assert r.documents[..|s.documents|] == s.documents;
    forall i, j | 0 <= i < j < |r.vendors|
      ensures r.vendors[i].registrationNumber != r.vendors[j].registrationNumber
    {
      assert r.vendors[i].registrationNumber == s.vendors[i].registrationNumber;
      assert r.vendors[j].registrationNumber == s.vendors[j].registrationNumber;
    }
  }

  lemma RescoreEvolves(s: Store, vendorId: nat, today: int, now: int)
    requires WellFormed(s)
    ensures WellFormed(Rescore(s, vendorId, today, now))
    ensures Evolves(s, Rescore(s, vendorId, today, now))
  {
    var r := Rescore(s, vendorId, today, now);
    if 1 <= vendorId <= |s.vendors| {
      var k := vendorId - 1;
      assert r == s.(vendors := s.vendors[k := r.vendors[k]]);
      ReplaceVendorEvolves(s, k, r.vendors[k]);
    } else {
      assert r.documents[..|s.documents|] == s.documents;
    }
  }

  predicate ScoresInRange(vendors: seq<Vendor>) {
    forall v :: v in vendors ==> 0 <= v.riskScore <= MaxScore
  }

  lemma RescoreKeepsScoresInRange(s: Store, vendorId: nat, today: int, now: int)
    requires ScoresInRange(s.vendors)
    ensures ScoresInRange(Rescore(s, vendorId, today, now).vendors)
  {
    var r := Rescore(s, vendorId, today, now);
    forall v | v in r.vendors ensures 0 <= v.riskScore <= MaxScore {
      var k :| 0 <= k < |r.vendors| && r.vendors[k] == v;
      assert k != vendorId - 1 ==> v == s.vendors[k];
    }
  }

  // ---------------------------------------------------------------------------
  // Audit flags

  /** The flag addAuditFlag and the sweeps save: the next id, unresolved. */
  function AddFlag(s: Store, vendorId: nat, description: string): (r: Store)
    ensures r.vendors == s.vendors && r.documents == s.documents
    ensures |r.flags| == |s.flags| + 1 && r.flags[..|s.flags|] == s.flags
  {
    s.(flags := s.flags + [NewFlag(|s.flags| + 1, vendorId, description)])
  }

  /** A new flag adds one to its vendor's open count and leaves every other vendor's count alone. */
  lemma AddFlagCounts(s: Store, vendorId: nat, description: string, other: nat)
    ensures CountUnresolvedByVendor(AddFlag(s, vendorId, description).flags, other)
         == CountUnresolvedByVendor(s.flags, other) + (if other == vendorId then 1 else 0)
  {
    var flags := AddFlag(s, vendorId, description).flags;
    assert flags[..|flags| - 1] == s.flags;
  }

  lemma AddFlagEvolves(s: Store, vendorId: nat, description: string)
    requires WellFormed(s) && 1 <= vendorId <= |s.vendors|
    ensures WellFormed(AddFlag(s, vendorId, description))
    ensures Evolves(s, AddFlag(s, vendorId, description))
  {
    var r := AddFlag(s, vendorId, description);
    assert r.documents[..|s.documents|] == s.documents;
    forall f | f in r.flags ensures 1 <= f.vendorId <= |r.vendors| && (f.resolved <==> f.resolvedAt.Some?) {
      if f !in s.flags {
        assert f == r.flags[|s.flags|];
      }
    }
  }

  /** resolveAuditFlag's update of the flag with id `flagId`; an unknown id leaves the store as it is. */
  function ResolveFlag(s: Store, flagId: int, now: int): (r: Store)
    ensures r.vendors == s.vendors && r.documents == s.documents && |r.flags| == |s.flags|
    ensures 1 <= flagId <= |s.flags| ==>
      r.flags == s.flags[flagId - 1 := Resolved(s.flags[flagId - 1], now)]
    ensures !(1 <= flagId <= |s.flags|) ==> r == s
  {
    if 1 <= flagId <= |s.flags| then
      s.(flags := s.flags[flagId - 1 := Resolved(s.flags[flagId - 1], now)])
    else s
  }

  predicate OpenFor(f: AuditFlag, vendorId: nat) {
    f.vendorId == vendorId && !f.resolved
  }

  /** Replacing one flag changes a vendor's open count by what the old and the new flag contribute. */
  lemma {:induction false} CountAfterUpdate(flags: seq<AuditFlag>, k: nat, g: AuditFlag, vendorId: nat)
    requires k < |flags|
    ensures CountUnresolvedByVendor(flags[k := g], vendorId) + OpenCount(flags[k], vendorId)
         == CountUnresolvedByVendor(flags, vendorId) + OpenCount(g, vendorId)
    decreases |flags|
  {
    var init := flags[..|flags| - 1];
    if k == |flags| - 1 {
      CountAfterUpdateLast(flags, g, vendorId);
    } else {
      CountAfterUpdate(init, k, g, vendorId);
      CountAfterUpdateBefore(flags, k, g, vendorId);
    }
  }

  lemma CountAfterUpdateLast(flags: seq<AuditFlag>, g: AuditFlag, vendorId: nat)
    requires flags != []
    ensures var k := |flags| - 1;
      CountUnresolvedByVendor(flags[k := g], vendorId) + OpenCount(flags[k], vendorId)
        == CountUnresolvedByVendor(flags, vendorId) + OpenCount(g, vendorId)
  {
    var init, last := flags[..|flags| - 1], flags[|flags| - 1];
    calc {
      CountUnresolvedByVendor(flags[|flags| - 1 := g], vendorId) + OpenCount(last, vendorId);
      { assert flags[|flags| - 1 := g] == init + [g]; CountSnoc(init, g, vendorId); }
      CountUnresolvedByVendor(init, vendorId) + OpenCount(g, vendorId) + OpenCount(last, vendorId);
      { assert flags == init + [last]; CountSnoc(init, last, vendorId); }
      CountUnresolvedByVendor(flags, vendorId) + OpenCount(g, vendorId);
    }
  }

  /** The step of `CountAfterUpdate` for a row before the last one. */
  lemma CountAfterUpdateBefore(flags: seq<AuditFlag>, k: nat, g: AuditFlag, vendorId: nat)
    requires k < |flags| - 1
    requires var init := flags[..|flags| - 1];
      CountUnresolvedByVendor(init[k := g], vendorId) + OpenCount(init[k], vendorId)
        == CountUnresolvedByVendor(init, vendorId) + OpenCount(g, vendorId)
    ensures CountUnresolvedByVendor(flags[k := g], vendorId) + OpenCount(flags[k], vendorId)
         == CountUnresolvedByVendor(flags, vendorId) + OpenCount(g, vendorId)
  {
    var init, last := flags[..|flags| - 1], flags[|flags| - 1];
    var before, after, other := OpenCount(flags[k], vendorId), OpenCount(g, vendorId), OpenCount(last, vendorId);
    calc {
      CountUnresolvedByVendor(flags[k := g], vendorId) + before;
      { assert flags[k := g] == init[k := g] + [last]; CountSnoc(init[k := g], last, vendorId); }
      CountUnresolvedByVendor(init[k := g], vendorId) + other + before;
      { assert init[k] == flags[k]; }
      CountUnresolvedByVendor(init, vendorId) + after + other;
      { assert flags == init + [last]; CountSnoc(init, last, vendorId); }
      CountUnresolvedByVendor(flags, vendorId) + after;
    }
  }

  function OpenCount(f: AuditFlag, vendorId: nat): nat {
    if OpenFor(f, vendorId) then 1 else 0
  }

  lemma CountSnoc(flags: seq<AuditFlag>, f: AuditFlag, vendorId: nat)
    ensures CountUnresolvedByVendor(flags + [f], vendorId) == CountUnresolvedByVendor(flags, vendorId) + OpenCount(f, vendorId)
  {
    assert (flags + [f])[..|flags|] == flags;
  }

  /**
   * Resolving lowers the owner's open count by one when the flag was open and
   * leaves it as it is when the flag was resolved already; other vendors' counts never change.
   */
  lemma ResolveCounts(s: Store, flagId: int, now: int, vendorId: nat)
    requires 1 <= flagId <= |s.flags|
    ensures var f := s.flags[flagId - 1];
      CountUnresolvedByVendor(ResolveFlag(s, flagId, now).flags, vendorId)
        == CountUnresolvedByVendor(s.flags, vendorId) - (if OpenFor(f, vendorId) then 1 else 0)
  {
    var f := s.flags[flagId - 1];
    assert ResolveFlag(s, flagId, now).flags == s.flags[flagId - 1 := Resolved(f, now)];
    assert !OpenFor(Resolved(f, now), vendorId);
    CountAfterUpdate(s.flags, flagId - 1, Resolved(f, now), vendorId);
  }

  lemma ResolveEvolves(s: Store, flagId: int, now: int)
    requires WellFormed(s)
    ensures WellFormed(ResolveFlag(s, flagId, now))
    ensures Evolves(s, ResolveFlag(s, flagId, now))
  {
    var r := ResolveFlag(s, flagId, now);
    assert r.documents[..|s.documents|] == s.documents;
    forall f | f in r.flags ensures 1 <= f.vendorId <= |r.vendors| && (f.resolved <==> f.resolvedAt.Some?) {
      var k :| 0 <= k < |r.flags| && r.flags[k] == f;
      assert s.flags[k] in s.flags;
    }
  }

  // ---------------------------------------------------------------------------
  // Documents

  /** The insert of uploadDocument. */
  function AddDocument(s: Store, document: Document): (r: Store)
    ensures r.vendors == s.vendors && r.flags == s.flags
    ensures |r.documents| == |s.documents| + 1 && r.documents[..|s.documents|] == s.documents
  {
    s.(documents := s.documents + [document])
  }

  lemma AddDocumentEvolves(s: Store, document: Document)
    requires WellFormed(s) && document.id == |s.documents| + 1 && 1 <= document.vendorId <= |s.vendors|
    ensures WellFormed(AddDocument(s, document))
    ensures Evolves(s, AddDocument(s, document))
  {
  }

  /**
   * A document uploaded no earlier than every stored one comes first in its
   * vendor's newest-first list, ahead of the vendor's earlier documents.
   */
  lemma UploadComesFirst(documents: seq<Document>, d: Document)
    requires forall e :: e in documents ==> e.uploadedAt <= d.uploadedAt
    ensures ByVendorNewestFirst(documents + [d], d.vendorId) == [d] + ByVendorNewestFirst(documents, d.vendorId)
  {
    var p := OfVendor(d.vendorId);
    var selected := Filter(documents, p);
    assert Filter(documents + [d], p) == selected + [d] by {
      FilterConcat(documents, [d], p);
      FilterSingleton(d, p);
    }
    SortDescSnoc(selected, d, UploadedAt);
    var sorted := SortDesc(selected, UploadedAt);
    forall e | e in sorted ensures UploadedAt(e) <= UploadedAt(d) {
      SortedMembership(selected, UploadedAt, e);
    }
    InsertGreatest(d, sorted, UploadedAt);
  }

  /**
   * Uploading a document that is current today, at a time no earlier than
   * every stored upload, never raises that vendor's score.
   */
  lemma CurrentUploadNeverRaisesScore(s: Store, d: Document, today: int, now: int)
    requires d.expiryDate >= today
    requires forall e :: e in s.documents ==> e.uploadedAt <= d.uploadedAt
    ensures Assess(AddDocument(s, d), d.vendorId, today, now).riskScore <= Assess(s, d.vendorId, today, now).riskScore
  {
    UploadComesFirst(s.documents, d);
    FreshUploadNeverRaisesScore(d.vendorId, d, ByVendorNewestFirst(s.documents, d.vendorId),
                                CountUnresolvedByVendor(s.flags, d.vendorId), today, now);
  }
}

=== FILE: repositories.dfy ===
/**
 * The derived queries of VendorRepository, VendorDocumentRepository and
 * AuditFlagRepository as functions over a snapshot of the tables. A table is
 * a sequence of rows in insertion order; with IDENTITY keys and no deletes,
 * the row at position k has id k + 1 (`IdsArePositions`).
 */
module Repositories {
  import opened Common
  import opened Seqs
  import opened Entities

  predicate VendorIdsArePositions(vendors: seq<Vendor>) {
    forall k :: 0 <= k < |vendors| ==> vendors[k].id == k + 1
  }

  predicate DocumentIdsArePositions(documents: seq<Document>) {
    forall k :: 0 <= k < |documents| ==> documents[k].id == k + 1
  }

  predicate FlagIdsArePositions(flags: seq<AuditFlag>) {
    forall k :: 0 <= k < |flags| ==> flags[k].id == k + 1
  }

  // ---------------------------------------------------------------------------
  // VendorRepository

  /** findById on the vendor table. */
  function FindVendor(vendors: seq<Vendor>, id: int): Option<Vendor> {
    if 1 <= id <= |vendors| then Some(vendors[id - 1]) else None
  }

  /** On a table keyed by position, findById finds exactly the stored vendor with that id. */
  lemma FindVendorById(vendors: seq<Vendor>, id: int)
    requires VendorIdsArePositions(vendors)
    ensures FindVendor(vendors, id).Some? <==> exists v :: v in vendors && v.id == id
    ensures FindVendor(vendors, id).Some? ==>
      FindVendor(vendors, id).value in vendors && FindVendor(vendors, id).value.id == id
  {
    if exists v :: v in vendors && v.id == id {
      var v :| v in vendors && v.id == id;
      var k :| 0 <= k < |vendors| && vendors[k] == v;
      assert vendors[k].id == k + 1;
    }
  }

  /** existsByRegistrationNumber */
  function ExistsByRegistrationNumber(vendors: seq<Vendor>, registrationNumber: string): (b: bool)
    ensures b <==> exists v :: v in vendors && v.registrationNumber == registrationNumber
  {
    if vendors == [] then false
    else
      var last := vendors[|vendors| - 1];
      assert vendors == vendors[..|vendors| - 1] + [last];
      last.registrationNumber == registrationNumber
        || ExistsByRegistrationNumber(vendors[..|vendors| - 1], registrationNumber)
  }

  function ScoreAtLeast(threshold: int): Vendor -> bool {
    (v: Vendor) => v.riskScore >= threshold
  }

  function HasStatus(status: VendorStatus): Vendor -> bool {
    (v: Vendor) => v.status == status
  }

  /** findByRiskScoreGreaterThanEqual, in table order. */
  function FindByRiskScoreAtLeast(vendors: seq<Vendor>, threshold: int): (r: seq<Vendor>)
    ensures forall v :: v in r <==> v in vendors && v.riskScore >= threshold
  {
    Filter(vendors, ScoreAtLeast(threshold))
  }

  /** findByStatusOrderByCreatedAtDesc */
  function FindByStatusNewestFirst(vendors: seq<Vendor>, status: VendorStatus): (r: seq<Vendor>)
    ensures forall v :: v in r <==> v in vendors && v.status == status
    ensures multiset(r) == multiset(Filter(vendors, HasStatus(status)))
    ensures NonIncreasing(r, CreatedAt)
  {
    var selected := Filter(vendors, HasStatus(status));
    forall v ensures v in SortDesc(selected, CreatedAt) <==> v in selected {
      SortedMembership(selected, CreatedAt, v);
    }
    SortDesc(selected, CreatedAt)
  }

  /** findAllByOrderByCreatedAtDesc */
  function FindAllNewestFirst(vendors: seq<Vendor>): (r: seq<Vendor>)
    ensures multiset(r) == multiset(vendors)
    ensures NonIncreasing(r, CreatedAt)
  {
    SortDesc(vendors, CreatedAt)
  }

  // ---------------------------------------------------------------------------
  // VendorDocumentRepository

  function OfVendor(vendorId: nat): Document -> bool {
    (d: Document) => d.vendorId == vendorId
  }

  function OfType(docType: DocumentType): Document -> bool {
    (d: Document) => d.docType == docType
  }

  function OfVendorAndType(vendorId: nat, docType: DocumentType): Document -> bool {
    (d: Document) => d.vendorId == vendorId && d.docType == docType
  }

  /** findByVendorIdOrderByUploadedAtDesc */
  function ByVendorNewestFirst(documents: seq<Document>, vendorId: nat): (r: seq<Document>)
    ensures forall d :: d in r <==> d in documents && d.vendorId == vendorId
    ensures multiset(r) == multiset(Filter(documents, OfVendor(vendorId)))
    ensures NonIncreasing(r, UploadedAt)
  {
    var selected := Filter(documents, OfVendor(vendorId));
    forall d ensures d in SortDesc(selected, UploadedAt) <==> d in selected {
      SortedMembership(selected, UploadedAt, d);
    }
    SortDesc(selected, UploadedAt)
  }

  /** findByVendorIdAndType, in table order. */
  function ByVendorAndType(documents: seq<Document>, vendorId: nat, docType: DocumentType): (r: seq<Document>)
    ensures forall d :: d in r <==> d in documents && d.vendorId == vendorId && d.docType == docType
  {
    Filter(documents, OfVendorAndType(vendorId, docType))
  }

  /** findTopByVendorIdAndTypeOrderByUploadedAtDesc */
  function TopByVendorAndType(documents: seq<Document>, vendorId: nat, docType: DocumentType): (r: Option<Document>)
    ensures r.None? <==> forall d :: d in documents ==> !(d.vendorId == vendorId && d.docType == docType)
    ensures r.Some? ==> r.value in documents && r.value.vendorId == vendorId && r.value.docType == docType
    ensures r.Some? ==> forall d :: d in documents && d.vendorId == vendorId && d.docType == docType ==>
      d.uploadedAt <= r.value.uploadedAt
  {
    var candidates := ByVendorAndType(documents, vendorId, docType);
    var sorted := SortDesc(candidates, UploadedAt);
    forall d ensures d in sorted <==> d in candidates {
      SortedMembership(candidates, UploadedAt, d);
    }
    if sorted == [] then None
    else
      forall d | d in sorted ensures d.uploadedAt <= sorted[0].uploadedAt {
        HeadIsGreatest(sorted, UploadedAt, d);
      }
      Some(sorted[0])
  }

  /** The owning vendor of a document is stored and APPROVED (the join in findExpiredDocuments). */
  predicate VendorApproved(vendors: seq<Vendor>, vendorId: int) {
    1 <= vendorId <= |vendors| && vendors[vendorId - 1].status == Approved
  }

  function ExpiredOn(vendors: seq<Vendor>, date: int): Document -> bool {
    (d: Document) => d.expiryDate <= date && VendorApproved(vendors, d.vendorId)
  }

  /**
   * findExpiredDocuments: the documents whose expiry date is on or before
   * `date` (inclusive) and whose vendor is APPROVED, in table order.
   */
  function ExpiredDocuments(vendors: seq<Vendor>, documents: seq<Document>, date: int): (r: seq<Document>)
    ensures forall d :: d in r <==> d in documents && d.expiryDate <= date && VendorApproved(vendors, d.vendorId)
  {
    Filter(documents, ExpiredOn(vendors, date))
  }

  // ---------------------------------------------------------------------------
  // AuditFlagRepository

  function UnresolvedOf(vendorId: nat): AuditFlag -> bool {
    (f: AuditFlag) => f.vendorId == vendorId && !f.resolved
  }

  /** findByVendorIdAndResolvedFalse, in table order. */
  function UnresolvedByVendor(flags: seq<AuditFlag>, vendorId: nat): (r: seq<AuditFlag>)
    ensures forall f :: f in r <==> f in flags && f.vendorId == vendorId && !f.resolved
    ensures |r| <= |flags|
  {
    Filter(flags, UnresolvedOf(vendorId))
  }

  /** countByVendorIdAndResolvedFalse, counted row by row. */
  function CountUnresolvedByVendor(flags: seq<AuditFlag>, vendorId: nat): nat {
    if flags == [] then 0
    else
      var last := flags[|flags| - 1];
      CountUnresolvedByVendor(flags[..|flags| - 1], vendorId)
        + (if last.vendorId == vendorId && !last.resolved then 1 else 0)
  }

  /** Counting row by row agrees with the length of the query's result. */
  lemma {:induction false} CountMatchesQuery(flags: seq<AuditFlag>, vendorId: nat)
    ensures CountUnresolvedByVendor(flags, vendorId) == |UnresolvedByVendor(flags, vendorId)|
    decreases |flags|
  {
    if flags != [] {
      var init, last := flags[..|flags| - 1], flags[|flags| - 1];
      CountMatchesQuery(init, vendorId);
      assert flags == init + [last];
      FilterSnoc(init, last, UnresolvedOf(vendorId));
    }
  }

  /** The count is zero exactly when the vendor has no unresolved flag, in particular when it has no flag at all. */
  lemma CountZeroIffNoneOpen(flags: seq<AuditFlag>, vendorId: nat)
    ensures CountUnresolvedByVendor(flags, vendorId) == 0 <==>
      forall f :: f in flags && f.vendorId == vendorId ==> f.resolved
  {
    var open := UnresolvedByVendor(flags, vendorId);
    CountMatchesQuery(flags, vendorId);
    if open != [] {
      assert open[0] in open;
    }
  }
}

=== FILE: risk.dfy ===
/**
 * The risk scorer of RiskService: the latest document of each type, the
 * classification of every required type as missing, expired or current,
 * the capped weighted score and its LOW / MEDIUM / HIGH level. The two loops
 * of the service (`mapLatestDocuments` and the pass over the required types)
 * are methods proved against the functions that specify them.
 */
module Risk {
  import opened Common
  import opened Seqs
  import opened Entities
  import opened Repositories

  const MissingDocWeight: nat := 20
  const ExpiredDocWeight: nat := 30
  const AuditFlagWeight: nat := 25
  const MaxScore: nat := 100

  /** The weighted sum before the cap, in mathematical integers. */
  function RawScore(missing: nat, expired: nat, unresolvedFlags: nat): nat {
    missing * MissingDocWeight + expired * ExpiredDocWeight + unresolvedFlags * AuditFlagWeight
  }

  /** The weighted sum capped at 100. */
  function RiskScore(missing: nat, expired: nat, unresolvedFlags: nat): (score: nat)
    ensures score <= MaxScore
    ensures score <= RawScore(missing, expired, unresolvedFlags)
    ensures RawScore(missing, expired, unresolvedFlags) <= MaxScore ==> score == RawScore(missing, expired, unresolvedFlags)
    ensures RawScore(missing, expired, unresolvedFlags) >= MaxScore ==> score == MaxScore
  {
    var raw := RawScore(missing, expired, unresolvedFlags);
    if raw < MaxScore then raw else MaxScore
  }

  /** More missing or expired documents or more open flags never lower the score. */
  lemma RiskScoreMonotone(m0: nat, e0: nat, f0: nat, m1: nat, e1: nat, f1: nat)
    requires m0 <= m1 && e0 <= e1 && f0 <= f1
    ensures RiskScore(m0, e0, f0) <= RiskScore(m1, e1, f1)
  {
    assert RawScore(m0, e0, f0) <= RawScore(m1, e1, f1);
  }

  /** Four open flags alone already reach the cap. */
  lemma FourFlagsSaturate(missing: nat, expired: nat, unresolvedFlags: nat)
    requires unresolvedFlags >= 4
    ensures RiskScore(missing, expired, unresolvedFlags) == MaxScore
  {
  }

  datatype RiskLevel = Low | Medium | High

  function LevelName(level: RiskLevel): string {
    match level
    case Low => "LOW"
    case Medium => "MEDIUM"
    case High => "HIGH"
  }

  function LevelRank(level: RiskLevel): nat {
    match level
    case Low => 0
    case Medium => 1
    case High => 2
  }

  /** toRiskLevel: LOW up to 20, MEDIUM up to 50, HIGH above. */
  function ToRiskLevel(score: int): (level: RiskLevel)
    ensures level == Low <==> score <= 20
    ensures level == Medium <==> 20 < score <= 50
    ensures level == High <==> 50 < score
  {
    if score <= 20 then Low
    else if score <= 50 then Medium
    else High
  }

  lemma LevelBoundaries()
    ensures ToRiskLevel(0) == Low && ToRiskLevel(20) == Low
    ensures ToRiskLevel(21) == Medium && ToRiskLevel(50) == Medium
    ensures ToRiskLevel(51) == High && ToRiskLevel(100) == High
  {
  }

  lemma LevelMonotone(a: int, b: int)
    requires a <= b
    ensures LevelRank(ToRiskLevel(a)) <= LevelRank(ToRiskLevel(b))
  {
  }

  // ---------------------------------------------------------------------------
  // The latest document of each type

  /** The position of the first document of type `docType`, or |documents| when there is none. */
  function FirstIndexOfType(documents: seq<Document>, docType: DocumentType): (k: nat)
    ensures k <= |documents|
    ensures forall j :: 0 <= j < k ==> documents[j].docType != docType
    ensures k < |documents| ==> documents[k].docType == docType
  {
    if documents == [] then 0
    else if documents[0].docType == docType then 0
    else 1 + FirstIndexOfType(documents[1..], docType)
  }

  /** The first document of type `docType`: the one `putIfAbsent` keeps. */
  function FirstOfType(documents: seq<Document>, docType: DocumentType): (r: Option<Document>)
    ensures r.None? <==> forall d :: d in documents ==> d.docType != docType
    ensures r.Some? ==> r.value in documents && r.value.docType == docType
  {
    var k := FirstIndexOfType(documents, docType);
    if k < |documents| then Some(documents[k]) else None
  }

  /** In a newest-first list, the first document of a type has the latest upload time of its type. */
  lemma FirstOfTypeIsNewest(documents: seq<Document>, docType: DocumentType, d: Document)
    requires NonIncreasing(documents, UploadedAt)
    requires d in documents && d.docType == docType
    ensures FirstOfType(documents, docType).Some?
    ensures d.uploadedAt <= FirstOfType(documents, docType).value.uploadedAt
  {
    var k := FirstIndexOfType(documents, docType);
    var j :| 0 <= j < |documents| && documents[j] == d;
    assert k <= j;
    if k < j {
      assert UploadedAt(documents[k]) >= UploadedAt(documents[j]);
    }
  }

  lemma {:induction false} FirstIndexConcat(documents: seq<Document>, later: seq<Document>, docType: DocumentType)
    ensures FirstIndexOfType(documents + later, docType) ==
      if FirstIndexOfType(documents, docType) < |documents| then FirstIndexOfType(documents, docType)
      else |documents| + FirstIndexOfType(later, docType)
    decreases |documents|
  {
    if documents == [] {
      assert documents + later == later;
    } else if documents[0].docType != docType {
      assert (documents + later)[1..] == documents[1..] + later;
      FirstIndexConcat(documents[1..], later, docType);
    }
  }

  /** Documents further down the list never change the latest document of a type already seen. */
  lemma FirstOfTypeIgnoresLater(documents: seq<Document>, later: seq<Document>, docType: DocumentType)
    requires FirstOfType(documents, docType).Some?
    ensures FirstOfType(documents + later, docType) == FirstOfType(documents, docType)
  {
    FirstIndexConcat(documents, later, docType);
    var k := FirstIndexOfType(documents, docType);
    assert (documents + later)[k] == documents[k];
  }

  lemma FirstOfTypeSnoc(documents: seq<Document>, d: Document, docType: DocumentType)
    ensures FirstOfType(documents + [d], docType) ==
      if FirstOfType(documents, docType).Some? then FirstOfType(documents, docType)
      else if d.docType == docType then Some(d)
      else None
  {
    FirstIndexConcat(documents, [d], docType);
    if FirstOfType(documents, docType).Some? {
      FirstOfTypeIgnoresLater(documents, [d], docType);
    } else {
      assert FirstIndexOfType([d], docType) == if d.docType == docType then 0 else 1 by {
        assert [d][1..] == [];
      }
    }
  }

  lemma FirstOfTypeCons(d: Document, documents: seq<Document>, docType: DocumentType)
    ensures FirstOfType([d] + documents, docType) ==
      if d.docType == docType then Some(d) else FirstOfType(documents, docType)
  {
    var all := [d] + documents;
    assert all[0] == d && all[1..] == documents;
    if d.docType != docType {
      assert FirstIndexOfType(all, docType) == 1 + FirstIndexOfType(documents, docType);
    }
  }

  /** The first document of a type is the head of the documents of that type. */
  lemma {:induction false} FirstOfTypeIsFilterHead(documents: seq<Document>, docType: DocumentType)
    ensures var selected := Filter(documents, OfType(docType));
      FirstOfType(documents, docType) == if selected == [] then None else Some(selected[0])
    decreases |documents|
  {
    if documents != [] {
      var d, rest := documents[0], documents[1..];
      assert documents == [d] + rest;
      FirstOfTypeCons(d, rest, docType);
      FilterCons(d, rest, OfType(docType));
      FirstOfTypeIsFilterHead(rest, docType);
    }
  }

  /**
   * The scorer's latest document of a type (the first of that type in the
   * vendor's newest-first list) is the document findTopByVendorIdAndTypeOrderByUploadedAtDesc returns.
   */
  lemma LatestAgreesWithTopQuery(documents: seq<Document>, vendorId: nat, docType: DocumentType)
    ensures FirstOfType(ByVendorNewestFirst(documents, vendorId), docType) == TopByVendorAndType(documents, vendorId, docType)
  {
    var ofVendor := Filter(documents, OfVendor(vendorId));
    FirstOfTypeIsFilterHead(SortDesc(ofVendor, UploadedAt), docType);
    FilterSortCommute(ofVendor, OfType(docType), UploadedAt);
    FilterFilter(documents, OfVendor(vendorId), OfType(docType), OfVendorAndType(vendorId, docType));
  }

  /** The EnumMap `mapLatestDocuments` builds: each type present maps to its first document. */
  function LatestByType(documents: seq<Document>): (latest: map<DocumentType, Document>)
    ensures forall t :: t in latest <==> exists d :: d in documents && d.docType == t
    ensures forall t :: t in latest ==> latest[t] in documents && latest[t].docType == t
  {
    forall t ensures t in AllTypes { AllTypesComplete(t); }
    map t | t in AllTypes && FirstOfType(documents, t).Some? :: FirstOfType(documents, t).value
  }

  lemma LatestByTypeAt(documents: seq<Document>, t: DocumentType)
    ensures t in LatestByType(documents) <==> FirstOfType(documents, t).Some?
    ensures t in LatestByType(documents) ==> LatestByType(documents)[t] == FirstOfType(documents, t).value
  {
    AllTypesComplete(t);
  }

  lemma LatestByTypeSnoc(documents: seq<Document>, d: Document)
    ensures LatestByType(documents + [d]) ==
      if d.docType in LatestByType(documents) then LatestByType(documents)
      else LatestByType(documents)[d.docType := d]
  {
    var before, after := LatestByType(documents), LatestByType(documents + [d]);
    var expected := if d.docType in before then before else before[d.docType := d];
    forall t ensures (t in after <==> t in expected) && (t in after ==> after[t] == expected[t]) {
      LatestByTypeSnocAt(documents, d, t);
    }
    SameEntries(after, expected);
  }

  lemma SameEntries<K, V>(m: map<K, V>, m': map<K, V>)
    requires forall k :: (k in m <==> k in m') && (k in m ==> m[k] == m'[k])
    ensures m == m'
  {
  }

  lemma LatestByTypeSnocAt(documents: seq<Document>, d: Document, t: DocumentType)
    ensures var before, after := LatestByType(documents), LatestByType(documents + [d]);
      var expected := if d.docType in before then before else before[d.docType := d];
      (t in after <==> t in expected) && (t in after ==> after[t] == expected[t])
  {
    LatestByTypeAt(documents, t);
    LatestByTypeAt(documents + [d], t);
    LatestByTypeAt(documents, d.docType);
    FirstOfTypeSnoc(documents, d, t);
  }

  /** mapLatestDocuments: `putIfAbsent` of every document in list order. */
  method MapLatestDocuments(documents: seq<Document>) returns (latest: map<DocumentType, Document>)
    ensures latest == LatestByType(documents)
  {
    latest := map[];
    assert documents[..0] == [];
    for i := 0 to |documents|
      invariant latest == LatestByType(documents[..i])
    {
      var d := documents[i];
      LatestByTypeSnoc(documents[..i], d);
      assert documents[..i + 1] == documents[..i] + [d];
      if d.docType !in latest {
        latest := latest[d.docType := d];
      }
    }
    assert documents[..|documents|] == documents;
  }

  // ---------------------------------------------------------------------------
  // Classification of the required types

  function Absent(latest: map<DocumentType, Document>): DocumentType -> bool {
    t => t !in latest
  }

  function ExpiredBefore(latest: map<DocumentType, Document>, today: int): DocumentType -> bool {
    t => t in latest && latest[t].expiryDate < today
  }

  /** The required types with no document, in EnumSet order. */
  function MissingTypes(latest: map<DocumentType, Document>): (missing: seq<DocumentType>)
    ensures forall t :: t in missing <==> t !in latest
  {
    forall t ensures t in AllTypes { AllTypesComplete(t); }
    Filter(AllTypes, Absent(latest))
  }

  /** The required types whose latest document expired strictly before `today`, in EnumSet order. */
  function ExpiredTypes(latest: map<DocumentType, Document>, today: int): (expired: seq<DocumentType>)
    ensures forall t :: t in expired <==> t in latest && latest[t].expiryDate < today
  {
    forall t ensures t in AllTypes { AllTypesComplete(t); }
    Filter(AllTypes, ExpiredBefore(latest, today))
  }

  /** The loop of calculateRiskScore over the required types. */
  method ClassifyRequiredTypes(latest: map<DocumentType, Document>, today: int)
    returns (missing: seq<DocumentType>, expired: seq<DocumentType>)
    ensures missing == MissingTypes(latest)
    ensures expired == ExpiredTypes(latest, today)
  {
    missing, expired := [], [];
    for i := 0 to |AllTypes|
      invariant missing == Filter(AllTypes[..i], Absent(latest))
      invariant expired == Filter(AllTypes[..i], ExpiredBefore(latest, today))
    {
      var requiredType := AllTypes[i];
      assert AllTypes[..i + 1] == AllTypes[..i] + [requiredType];
      FilterSnoc(AllTypes[..i], requiredType, Absent(latest));
      FilterSnoc(AllTypes[..i], requiredType, ExpiredBefore(latest, today));
      if requiredType !in latest {
        missing := missing + [requiredType];
      } else if latest[requiredType].expiryDate < today {
        expired := expired + [requiredType];
      }
    }
    assert AllTypes[..|AllTypes|] == AllTypes;
  }

  lemma AllTypesDistinct()
    ensures NoDuplicates(AllTypes)
  {
  }

  /** Neither list repeats a type, and together they hold at most the five required types. */
  lemma ClassificationSizes(latest: map<DocumentType, Document>, today: int)
    ensures NoDuplicates(MissingTypes(latest)) && NoDuplicates(ExpiredTypes(latest, today))
    ensures |MissingTypes(latest)| + |ExpiredTypes(latest, today)| <= |AllTypes|
  {
    AllTypesDistinct();
    FilterNoDuplicates(AllTypes, Absent(latest));
    FilterNoDuplicates(AllTypes, ExpiredBefore(latest, today));
    FilterDisjointLength(AllTypes, Absent(latest), ExpiredBefore(latest, today));
  }

  /**
   * Every required type is in exactly one class, decided by the documents:
   * missing when there is none of that type, expired when the first one
   * expired strictly before `today`, current otherwise.
   */
  lemma ClassifyByDocuments(documents: seq<Document>, today: int, t: DocumentType)
    ensures var latest := LatestByType(documents);
      && (t in MissingTypes(latest) <==> forall d :: d in documents ==> d.docType != t)
      && (t in ExpiredTypes(latest, today) <==>
            FirstOfType(documents, t).Some? && FirstOfType(documents, t).value.expiryDate < today)
      && !(t in MissingTypes(latest) && t in ExpiredTypes(latest, today))
      && (t !in MissingTypes(latest) && t !in ExpiredTypes(latest, today) <==>
            FirstOfType(documents, t).Some? && FirstOfType(documents, t).value.expiryDate >= today)
  {
    AllTypesComplete(t);
  }

  // ---------------------------------------------------------------------------
  // The report

  datatype RiskReport = RiskReport(
    vendorId: nat,
    riskScore: nat,
    riskLevel: RiskLevel,
    missingDocuments: seq<DocumentType>,
    expiredDocuments: seq<DocumentType>,
    evaluatedAt: int)

  /** The response of calculateRiskScore for a vendor's newest-first documents and open-flag count. */
  function Evaluate(vendorId: nat, documents: seq<Document>, unresolvedFlags: nat, today: int, now: int): (r: RiskReport)
    ensures r.vendorId == vendorId && r.evaluatedAt == now
    ensures r.riskScore == RiskScore(|r.missingDocuments|, |r.expiredDocuments|, unresolvedFlags) <= MaxScore
    ensures r.riskLevel == ToRiskLevel(r.riskScore)
    ensures forall t :: t in r.missingDocuments <==> forall d :: d in documents ==> d.docType != t
    ensures forall t :: t in r.expiredDocuments <==>
      FirstOfType(documents, t).Some? && FirstOfType(documents, t).value.expiryDate < today
  {
    var latest := LatestByType(documents);
    forall t ensures (t in MissingTypes(latest) <==> forall d :: d in documents ==> d.docType != t)
      && (t in ExpiredTypes(latest, today) <==>
            FirstOfType(documents, t).Some? && FirstOfType(documents, t).value.expiryDate < today) {
      ClassifyByDocuments(documents, today, t);
    }
    var missing := MissingTypes(latest);
    var expired := ExpiredTypes(latest, today);
    var score := RiskScore(|missing|, |expired|, unresolvedFlags);
    RiskReport(vendorId, score, ToRiskLevel(score), missing, expired, now)
  }

  /** A fresh document in front never adds a missing type. */
  lemma FreshUploadMissing(d: Document, documents: seq<Document>)
    ensures |MissingTypes(LatestByType([d] + documents))| <= |MissingTypes(LatestByType(documents))|
  {
    var before, after := LatestByType(documents), LatestByType([d] + documents);
    forall t | t in AllTypes && Absent(after)(t) ensures Absent(before)(t) {
      LatestByTypeAt(documents, t);
      LatestByTypeAt([d] + documents, t);
      FirstOfTypeCons(d, documents, t);
    }
    FilterWeakerLength(AllTypes, Absent(after), Absent(before));
  }

  /** A fresh document in front that is current today never adds an expired type. */
  lemma FreshUploadExpired(d: Document, documents: seq<Document>, today: int)
    requires d.expiryDate >= today
    ensures |ExpiredTypes(LatestByType([d] + documents), today)| <= |ExpiredTypes(LatestByType(documents), today)|
  {
    var before, after := LatestByType(documents), LatestByType([d] + documents);
    forall t | t in AllTypes && ExpiredBefore(after, today)(t) ensures ExpiredBefore(before, today)(t) {
      LatestByTypeAt(documents, t);
      LatestByTypeAt([d] + documents, t);
      FirstOfTypeCons(d, documents, t);
    }
    FilterWeakerLength(AllTypes, ExpiredBefore(after, today), ExpiredBefore(before, today));
  }

  /**
   * Putting a document that is current today in front of the newest-first
   * list (a fresh upload) never raises the score.
   */
  lemma FreshUploadNeverRaisesScore(vendorId: nat, d: Document, documents: seq<Document>,
                                    unresolvedFlags: nat, today: int, now: int)
    requires d.expiryDate >= today
    ensures Evaluate(vendorId, [d] + documents, unresolvedFlags, today, now).riskScore
         <= Evaluate(vendorId, documents, unresolvedFlags, today, now).riskScore
  {
    var before, after := LatestByType(documents), LatestByType([d] + documents);
    FreshUploadMissing(d, documents);
    FreshUploadExpired(d, documents, today);
    RiskScoreMonotone(|MissingTypes(after)|, |ExpiredTypes(after, today)|, unresolvedFlags,
                      |MissingTypes(before)|, |ExpiredTypes(before, today)|, unresolvedFlags);
  }

  /**
   * The document response's `expired` flag agrees with the scorer: the latest
   * document of a type is reported expired exactly when its type is counted as expired.
   */
  lemma ResponseAgreesWithScorer(documents: seq<Document>, d: Document, today: int)
    requires FirstOfType(documents, d.docType) == Some(d)
    ensures ToResponse(d, today).expired <==> d.docType in ExpiredTypes(LatestByType(documents), today)
  {
    ClassifyByDocuments(documents, today, d.docType);
  }
}

=== FILE: seqs.dfy ===
/**
 * Sequence operations the repositories and services are built from: the
 * filter behind every derived query, the de-duplication behind
 * `Stream.distinct()`, and the newest-first ordering behind every
 * `OrderBy...Desc` query, with the facts about them that the rest of the
 * model needs.
 */
module Seqs {

  /** The elements of `s` that satisfy `p`, in their original order. */
  function Filter<T(==,!new)>(s: seq<T>, p: T -> bool): (r: seq<T>)
    ensures |r| <= |s|
    ensures forall x :: x in r <==> x in s && p(x)
  {
    if s == [] then []
    else
      var init, last := s[..|s| - 1], s[|s| - 1];
      assert s == init + [last];
      Filter(init, p) + (if p(last) then [last] else [])
  }

  function MapSeq<T, U>(s: seq<T>, f: T -> U): (r: seq<U>)
    ensures |r| == |s|
    ensures forall i :: 0 <= i < |s| ==> r[i] == f(s[i])
  {
    seq(|s|, i requires 0 <= i < |s| => f(s[i]))
  }

  predicate NoDuplicates<T(==)>(s: seq<T>) {
    forall i, j :: 0 <= i < j < |s| ==> s[i] != s[j]
  }

  lemma NoDuplicatesSnoc<T>(s: seq<T>)
    requires NoDuplicates(s) && s != []
    ensures NoDuplicates(s[..|s| - 1]) && s[|s| - 1] !in s[..|s| - 1]
  {
    var init := s[..|s| - 1];
    forall i, j | 0 <= i < j < |init| ensures init[i] != init[j] {
      assert init[i] == s[i] && init[j] == s[j];
    }
    forall i | 0 <= i < |init| ensures init[i] != s[|s| - 1] {
      assert init[i] == s[i];
    }
  }

  /** The distinct elements of `s`, in the order of their first occurrences (`DistinctOrder`). */
  function Distinct<T(==,!new)>(s: seq<T>): (r: seq<T>)
    ensures forall x :: x in r <==> x in s
    ensures NoDuplicates(r)
  {
    if s == [] then []
    else
      var init, last := s[..|s| - 1], s[|s| - 1];
      assert s == init + [last];
      var r := Distinct(init);
      if last in r then r else r + [last]
  }

  /** The index of the first occurrence of `x` in `s`. */
  function IndexOf<T(==)>(s: seq<T>, x: T): (k: nat)
    requires x in s
    ensures k < |s| && s[k] == x && x !in s[..k]
  {
    if s[0] == x then 0
    else
      var k := IndexOf(s[1..], x);
      assert s[..k + 1] == [s[0]] + s[1..][..k];
      k + 1
  }

  /** A first occurrence is unique, and appending after it does not move it. */
  lemma IndexOfSnoc<T>(s: seq<T>, y: T, x: T)
    requires x in s
    ensures IndexOf(s + [y], x) == IndexOf(s, x)
  {
    var k, m := IndexOf(s, x), IndexOf(s + [y], x);
    assert (s + [y])[..k] == s[..k];
    assert (s + [y])[k] == x;
  }

  /** `Distinct` lists the elements in the order of their first occurrences in `s`. */
  lemma {:induction false} DistinctOrder<T(!new)>(s: seq<T>)
    ensures forall i, j :: 0 <= i < j < |Distinct(s)| ==>
      IndexOf(s, Distinct(s)[i]) < IndexOf(s, Distinct(s)[j])
  {
    if s != [] {
      var init, last := s[..|s| - 1], s[|s| - 1];
      assert s == init + [last];
      var r0, r := Distinct(init), Distinct(s);
      DistinctOrder(init);
      forall i, j | 0 <= i < j < |r| ensures IndexOf(s, r[i]) < IndexOf(s, r[j]) {
        assert r[i] == r0[i] && r0[i] in init;
        IndexOfSnoc(init, last, r[i]);
        if j < |r0| {
          assert r[j] == r0[j] && r0[j] in init;
          IndexOfSnoc(init, last, r[j]);
        } else {
          assert r[j] == last && last !in init;
        }
      }
    }
  }

  lemma {:induction false} FilterConcat<T(!new)>(a: seq<T>, b: seq<T>, p: T -> bool)
    ensures Filter(a + b, p) == Filter(a, p) + Filter(b, p)
    decreases |b|
  {
    if b == [] {
      assert a + b == a;
    } else {
      var init, last := b[..|b| - 1], b[|b| - 1];
      var tail := if p(last) then [last] else [];
      assert b == init + [last];
      calc {
        Filter(a + b, p);
        { assert a + b == (a + init) + [last]; }
        Filter((a + init) + [last], p);
        { FilterSnoc(a + init, last, p); }
        Filter(a + init, p) + tail;
        { FilterConcat(a, init, p); }
        Filter(a, p) + Filter(init, p) + tail;
        Filter(a, p) + (Filter(init, p) + tail);
        { FilterSnoc(init, last, p); }
        Filter(a, p) + Filter(b, p);
      }
    }
  }

  lemma FilterSnoc<T(!new)>(s: seq<T>, x: T, p: T -> bool)
    ensures Filter(s + [x], p) == Filter(s, p) + if p(x) then [x] else []
  {
    assert (s + [x])[..|s|] == s;
  }

  /** Filtering with a predicate every element satisfies keeps the whole sequence. */
  lemma {:induction false} FilterAll<T(!new)>(s: seq<T>, p: T -> bool)
    requires forall x :: x in s ==> p(x)
    ensures Filter(s, p) == s
    decreases |s|
  {
    if s != [] {
      var init, last := s[..|s| - 1], s[|s| - 1];
      assert s == init + [last];
      forall x | x in init ensures p(x) {
        assert x in s;
      }
      FilterAll(init, p);
      assert p(last);
      assert Filter(s, p) == Filter(init, p) + [last];
    }
  }

  lemma FilterSingleton<T(!new)>(x: T, p: T -> bool)
    ensures Filter([x], p) == if p(x) then [x] else []
  {
    assert [x][..0] == [];
    assert Filter([x][..0], p) == [];
  }

  lemma FilterCons<T(!new)>(x: T, s: seq<T>, p: T -> bool)
    ensures Filter([x] + s, p) == (if p(x) then [x] else []) + Filter(s, p)
  {
    FilterConcat([x], s, p);
    FilterSingleton(x, p);
  }

  lemma {:induction false} FilterCongruence<T(!new)>(s: seq<T>, p: T -> bool, q: T -> bool)
    requires forall x :: x in s ==> p(x) == q(x)
    ensures Filter(s, p) == Filter(s, q)
    decreases |s|
  {
    if s != [] {
      FilterCongruence(s[..|s| - 1], p, q);
    }
  }

  lemma {:induction false} FilterFilter<T(!new)>(s: seq<T>, p: T -> bool, q: T -> bool, pq: T -> bool)
    requires forall x :: pq(x) == (p(x) && q(x))
    ensures Filter(Filter(s, p), q) == Filter(s, pq)
    decreases |s|
  {
    if s != [] {
      var init, last := s[..|s| - 1], s[|s| - 1];
      FilterFilter(init, p, q, pq);
      FilterConcat(Filter(init, p), if p(last) then [last] else [], q);
      FilterSingleton(last, q);
    }
  }

  /** Two predicates no element satisfies together select at most |s| elements in all. */
  lemma {:induction false} FilterDisjointLength<T(!new)>(s: seq<T>, p: T -> bool, q: T -> bool)
    requires forall x :: x in s ==> !(p(x) && q(x))
    ensures |Filter(s, p)| + |Filter(s, q)| <= |s|
    decreases |s|
  {
    if s != [] {
      FilterDisjointLength(s[..|s| - 1], p, q);
    }
  }

  /** A weaker predicate selects at least as many elements. */
  lemma {:induction false} FilterWeakerLength<T(!new)>(s: seq<T>, p: T -> bool, q: T -> bool)
    requires forall x :: x in s && p(x) ==> q(x)
    ensures |Filter(s, p)| <= |Filter(s, q)|
    decreases |s|
  {
    if s != [] {
      FilterWeakerLength(s[..|s| - 1], p, q);
    }
  }

  lemma {:induction false} FilterNoDuplicates<T(!new)>(s: seq<T>, p: T -> bool)
    requires NoDuplicates(s)
    ensures NoDuplicates(Filter(s, p))
    decreases |s|
  {
    if s != [] {
      var init, last := s[..|s| - 1], s[|s| - 1];
      FilterNoDuplicates(init, p);
      assert last !in init;
    }
  }

  // ---------------------------------------------------------------------------
  // Newest-first ordering

  ghost predicate NonIncreasing<T>(s: seq<T>, key: T -> int) {
    forall i, j :: 0 <= i < j < |s| ==> key(s[i]) >= key(s[j])
  }

  /** Places `x` in front of the first element whose key is not greater than its own. */
  function Insert<T(==)>(x: T, s: seq<T>, key: T -> int): (r: seq<T>)
    ensures |r| == |s| + 1
    ensures multiset(r) == multiset(s) + multiset{x}
  {
    if s == [] || key(s[0]) <= key(x) then [x] + s
    else
      assert s == [s[0]] + s[1..];
      [s[0]] + Insert(x, s[1..], key)
  }

  lemma {:induction false} InsertSorted<T>(x: T, s: seq<T>, key: T -> int)
    requires NonIncreasing(s, key)
    ensures NonIncreasing(Insert(x, s, key), key)
    decreases |s|
  {
    if s == [] || key(s[0]) <= key(x) {
    } else {
      var rest := Insert(x, s[1..], key);
      InsertSorted(x, s[1..], key);
      forall y | y in rest
        ensures key(y) <= key(s[0])
      {
        assert y in multiset(rest);
        if y != x {
          assert y in s[1..];
        }
      }
    }
  }

  /**
   * Orders `s` by descending key, as `ORDER BY key DESC` does. The elements are
   * taken in store order and each is placed in front of the elements of equal
   * key, so among equal keys the later-stored element comes first.
   */
  function SortDesc<T(==)>(s: seq<T>, key: T -> int): (r: seq<T>)
    ensures multiset(r) == multiset(s)
    ensures NonIncreasing(r, key)
  {
    if s == [] then []
    else
      var init, last := s[..|s| - 1], s[|s| - 1];
      assert s == init + [last];
      InsertSorted(last, SortDesc(init, key), key);
      Insert(last, SortDesc(init, key), key)
  }

  lemma SortDescSnoc<T>(s: seq<T>, x: T, key: T -> int)
    ensures SortDesc(s + [x], key) == Insert(x, SortDesc(s, key), key)
  {
    assert (s + [x])[..|s|] == s;
  }

  /** An element whose key is at least every key of a sorted sequence goes in front. */
  lemma InsertGreatest<T>(x: T, s: seq<T>, key: T -> int)
    requires forall y :: y in s ==> key(y) <= key(x)
    ensures Insert(x, s, key) == [x] + s
  {
    if s != [] {
      assert s[0] in s;
    }
  }

  lemma SortedMembership<T>(s: seq<T>, key: T -> int, x: T)
    ensures x in SortDesc(s, key) <==> x in s
  {
    assert x in SortDesc(s, key) <==> x in multiset(SortDesc(s, key));
  }

  lemma {:induction false} FilterSorted<T(!new)>(s: seq<T>, p: T -> bool, key: T -> int)
    requires NonIncreasing(s, key)
    ensures NonIncreasing(Filter(s, p), key)
    decreases |s|
  {
    if s != [] {
      var init, last := s[..|s| - 1], s[|s| - 1];
      FilterSorted(init, p, key);
      forall y | y in Filter(init, p)
        ensures key(y) >= key(last)
      {
        var k :| 0 <= k < |init| && init[k] == y;
        assert s[k] == y;
      }
    }
  }

  /** The first element of a non-increasing sequence has the greatest key. */
  lemma HeadIsGreatest<T>(s: seq<T>, key: T -> int, y: T)
    requires NonIncreasing(s, key) && s != [] && y in s
    ensures key(y) <= key(s[0])
  {
    var k :| 0 <= k < |s| && s[k] == y;
    if k > 0 {
      assert key(s[0]) >= key(s[k]);
    }
  }

  lemma FilterInsertFront<T(!new)>(x: T, s: seq<T>, p: T -> bool, key: T -> int)
    requires NonIncreasing(s, key)
    requires s == [] || key(s[0]) <= key(x)
    ensures Filter(Insert(x, s, key), p) == if p(x) then Insert(x, Filter(s, p), key) else Filter(s, p)
  {
    var fs := Filter(s, p);
    calc {
      Filter(Insert(x, s, key), p);
      { assert Insert(x, s, key) == [x] + s; }
      Filter([x] + s, p);
      { FilterCons(x, s, p); }
      (if p(x) then [x] else []) + fs;
    }
    if p(x) {
      if fs != [] {
        assert fs[0] in s;
        HeadIsGreatest(s, key, fs[0]);
      }
      assert Insert(x, fs, key) == [x] + fs;
    } else {
      assert [] + fs == fs;
    }
  }

  lemma NonIncreasingTail<T>(s: seq<T>, key: T -> int)
    requires NonIncreasing(s, key) && s != []
    ensures NonIncreasing(s[1..], key)
  {
    var s1 := s[1..];
    forall i, j | 0 <= i < j < |s1| ensures key(s1[i]) >= key(s1[j]) {
      assert s1[i] == s[i + 1] && s1[j] == s[j + 1];
    }
  }

  lemma {:induction false} FilterInsert<T(!new)>(x: T, s: seq<T>, p: T -> bool, key: T -> int)
    requires NonIncreasing(s, key)
    ensures Filter(Insert(x, s, key), p) == if p(x) then Insert(x, Filter(s, p), key) else Filter(s, p)
    decreases |s|
  {
    if s == [] || key(s[0]) <= key(x) {
      FilterInsertFront(x, s, p, key);
    } else {
      FilterInsertBehind(x, s, p, key);
    }
  }

  lemma {:induction false} FilterInsertBehind<T(!new)>(x: T, s: seq<T>, p: T -> bool, key: T -> int)
    requires NonIncreasing(s, key)
    requires s != [] && key(s[0]) > key(x)
    ensures Filter(Insert(x, s, key), p) == if p(x) then Insert(x, Filter(s, p), key) else Filter(s, p)
    decreases |s|, 0
  {
    var s0, s1 := s[0], s[1..];
    assert s == [s0] + s1;
    NonIncreasingTail(s, key);
    var rest := Insert(x, s1, key);
    var f1 := Filter(s1, p);
    var head := if p(s0) then [s0] else [];
    assert Insert(x, s, key) == [s0] + rest;
    FilterCons(s0, rest, p);
    FilterCons(s0, s1, p);
    FilterInsert(x, s1, p, key);
    var filtered := Filter(Insert(x, s, key), p);
    assert filtered == head + Filter(rest, p);
    assert Filter(s, p) == head + f1;
    if !p(x) {
      assert filtered == head + f1;
    } else if p(s0) {
      InsertBehindHead(x, s0, f1, key);
      assert filtered == [s0] + Insert(x, f1, key);
    } else {
      assert head + f1 == f1 && head + Insert(x, f1, key) == Insert(x, f1, key);
    }
  }

  /** An element with a smaller key than the head is inserted behind it. */
  lemma InsertBehindHead<T>(x: T, y: T, s: seq<T>, key: T -> int)
    requires key(y) > key(x)
    ensures Insert(x, [y] + s, key) == [y] + Insert(x, s, key)
  {
    assert ([y] + s)[0] == y && ([y] + s)[1..] == s;
  }

  /** Filtering commutes with the newest-first ordering. */
  lemma {:induction false} FilterSortCommute<T(!new)>(s: seq<T>, p: T -> bool, key: T -> int)
    ensures Filter(SortDesc(s, key), p) == SortDesc(Filter(s, p), key)
    decreases |s|
  {
    if s != [] {
      var init, last := s[..|s| - 1], s[|s| - 1];
      FilterSortCommute(init, p, key);
      FilterInsert(last, SortDesc(init, key), p, key);
      var fi := Filter(init, p);
      if p(last) {
        assert Filter(s, p) == fi + [last];
        assert (fi + [last])[..|fi|] == fi;
      } else {
        assert Filter(s, p) == fi;
      }
    }
  }
}

=== FILE: services.dfy ===
/**
 * The public service operations as transactions on the tables: each one is
 * a function from the store before the call to the call's result and the
 * store after it. A failed call (a thrown exception) leaves the store as it
 * was, as the surrounding transaction's rollback does. The engine's methods
 * are proved to compute exactly these functions.
 */
module Services {
  import opened Common
  import opened Seqs
  import opened Entities
  import opened Repositories
  import opened Risk
  import opened Ledger

  /** A call's result together with the tables after the call. */
  datatype Outcome<+T> = Outcome(result: Result<T>, store: Store)

  const DuplicateRegistration := "Vendor with registration number already exists"
  const StatusPrefix := "Vendor is already in status "
  const FileRequired := "Document file is required"
  const TypeRequired := "Document type is required"
  const ExpiryRequired := "Expiry date is required"

  // ---------------------------------------------------------------------------
  // VendorService

  /** onboardVendor */
  function Onboarding(s: Store, request: OnboardingRequest, actor: string, now: int): (o: Outcome<Vendor>)
    ensures o.result.Err? <==> exists v :: v in s.vendors && v.registrationNumber == request.registrationNumber
    ensures o.result.Err? ==> o.result.error == BadRequest(DuplicateRegistration) && o.store == s
    ensures o.result.Ok? ==>
      && o.store == s.(vendors := s.vendors + [o.result.value])
      && o.result.value.id == |s.vendors| + 1
      && o.result.value.registrationNumber == request.registrationNumber
      && o.result.value.legalName == request.legalName && o.result.value.tradingName == request.tradingName
      && o.result.value.email == request.email && o.result.value.phone == request.phone
      && o.result.value.address == request.address && o.result.value.onboardingNotes == request.onboardingNotes
      && o.result.value.status == Pending && o.result.value.riskScore == 0
      && o.result.value.lastRiskCalculatedAt == None
      && o.result.value.createdBy == actor && o.result.value.updatedBy == actor
      && o.result.value.createdAt == now && o.result.value.updatedAt == now
  {
    if ExistsByRegistrationNumber(s.vendors, request.registrationNumber) then
      Outcome(Err(BadRequest(DuplicateRegistration)), s)
    else
      var v := NewVendor(|s.vendors| + 1, request, actor, now);
      Outcome(Ok(v), s.(vendors := s.vendors + [v]))
  }

  lemma OnboardingEvolves(s: Store, request: OnboardingRequest, actor: string, now: int)
    requires WellFormed(s)
    ensures WellFormed(Onboarding(s, request, actor, now).store)
    ensures Evolves(s, Onboarding(s, request, actor, now).store)
  {
    var r := Onboarding(s, request, actor, now).store;
    assert r.documents[..|s.documents|] == s.documents;
    if r != s {
      forall i, j | 0 <= i < j < |r.vendors|
        ensures r.vendors[i].registrationNumber != r.vendors[j].registrationNumber
      {
        if j == |s.vendors| {
          assert r.vendors[i] in s.vendors;
        }
      }
      forall f | f in r.flags ensures 1 <= f.vendorId <= |r.vendors| {
      }
    }
  }

  /** Once a registration number is onboarded, a second onboarding with it fails. */
  lemma OnboardingTwiceFails(s: Store, first: OnboardingRequest, second: OnboardingRequest,
                             actor: string, later: string, now: int, next: int)
    requires Onboarding(s, first, actor, now).result.Ok?
    requires second.registrationNumber == first.registrationNumber
    ensures Onboarding(Onboarding(s, first, actor, now).store, second, later, next).result
         == Err(BadRequest(DuplicateRegistration))
  {
    var o := Onboarding(s, first, actor, now);
    assert o.result.value in o.store.vendors;
  }

  /** The two targets of a review: APPROVE approves, anything else (no decision included) rejects. */
  datatype Decision = Approve | Reject

  function ReviewTarget(decision: Option<Decision>): (target: VendorStatus)
    ensures target == Approved <==> decision == Some(Approve)
    ensures target != Pending
  {
    if decision == Some(Approve) then Approved else Rejected
  }

  /**
   * updateStatus: not found for an unknown id, a bad request when the vendor
   * already has the target status, otherwise the status, the updater and
   * possibly the notes change.
   */
  function StatusChange(s: Store, vendorId: nat, target: VendorStatus, comments: Option<string>,
                        actor: string, now: int): (o: Outcome<Vendor>)
    ensures o.result == Err(NotFound) <==> !(1 <= vendorId <= |s.vendors|)
    ensures 1 <= vendorId <= |s.vendors| ==>
      (o.result == Err(BadRequest(StatusPrefix + StatusName(target))) <==> s.vendors[vendorId - 1].status == target)
    ensures 1 <= vendorId <= |s.vendors| && s.vendors[vendorId - 1].status != target ==> o.result.Ok?
    ensures o.result.Err? ==> o.store == s
    ensures o.result.Ok? ==>
      && 1 <= vendorId <= |s.vendors|
      && o.store == s.(vendors := s.vendors[vendorId - 1 := o.result.value])
      && o.result.value.status == target && o.result.value.updatedBy == actor && o.result.value.updatedAt == now
      && (HasText(comments) ==> o.result.value.onboardingNotes == comments)
      && (!HasText(comments) ==> o.result.value.onboardingNotes == s.vendors[vendorId - 1].onboardingNotes)
      && o.result.value.riskScore == s.vendors[vendorId - 1].riskScore
      && o.result.value.lastRiskCalculatedAt == s.vendors[vendorId - 1].lastRiskCalculatedAt
      && SameIdentity(s.vendors[vendorId - 1], o.result.value)
  {
    if !(1 <= vendorId <= |s.vendors|) then Outcome(Err(NotFound), s)
    else
      var v := s.vendors[vendorId - 1];
      if v.status == target then Outcome(Err(BadRequest(StatusPrefix + StatusName(target))), s)
      else
        StatusChangeFrame(v, target, comments, actor, now);
        var w := WithStatus(v, target, comments, actor, now);
        Outcome(Ok(w), s.(vendors := s.vendors[vendorId - 1 := w]))
  }

  lemma StatusChangeEvolves(s: Store, vendorId: nat, target: VendorStatus, comments: Option<string>,
                            actor: string, now: int)
    requires WellFormed(s)
    ensures WellFormed(StatusChange(s, vendorId, target, comments, actor, now).store)
    ensures Evolves(s, StatusChange(s, vendorId, target, comments, actor, now).store)
  {
    var o := StatusChange(s, vendorId, target, comments, actor, now);
    if o.result.Ok? {
      ReplaceVendorEvolves(s, vendorId - 1, o.result.value);
    } else {
      assert s.documents[..|s.documents|] == s.documents;
    }
  }

  /**
   * Approving or rejecting twice in a row fails the second time, while an
   * APPROVED vendor can be rejected and a REJECTED one approved.
   */
  lemma StatusChangeTwice(s: Store, vendorId: nat, target: VendorStatus, comments: Option<string>,
                          actor: string, now: int, next: int)
    requires StatusChange(s, vendorId, target, comments, actor, now).result.Ok?
    ensures var after := StatusChange(s, vendorId, target, comments, actor, now).store;
      && StatusChange(after, vendorId, target, comments, actor, next).result == Err(BadRequest(StatusPrefix + StatusName(target)))
      && StatusChange(after, vendorId, target, comments, actor, next).store == after
      && (forall other: VendorStatus :: other != target ==>
            StatusChange(after, vendorId, other, comments, actor, next).result.Ok?)
  {
  }

  /** updateRiskScore: only the score and the time of its calculation change (and the update stamp). */
  function RiskUpdate(s: Store, vendorId: nat, score: int, now: int): (o: Outcome<()>)
    ensures o.result.Ok? <==> 1 <= vendorId <= |s.vendors|
    ensures o.result.Err? ==> o.result.error == NotFound && o.store == s
    ensures o.result.Ok? ==>
      && o.store.documents == s.documents && o.store.flags == s.flags && |o.store.vendors| == |s.vendors|
      && (forall k :: 0 <= k < |s.vendors| && k != vendorId - 1 ==> o.store.vendors[k] == s.vendors[k])
      && OnlyRiskChanged(s.vendors[vendorId - 1], o.store.vendors[vendorId - 1])
      && o.store.vendors[vendorId - 1].riskScore == score
      && o.store.vendors[vendorId - 1].lastRiskCalculatedAt == Some(now)
  {
    if 1 <= vendorId <= |s.vendors| then Outcome(Ok(()), WithVendorScore(s, vendorId, score, now))
    else Outcome(Err(NotFound), s)
  }

  // ---------------------------------------------------------------------------
  // RiskService

  /**
   * calculateRiskScore: not found for an unknown vendor; otherwise the report
   * computed from the vendor's documents and open flags, with the score
   * written back to the vendor.
   */
  function RiskCalculation(s: Store, vendorId: nat, today: int, now: int): (o: Outcome<RiskReport>)
    ensures o.result.Ok? <==> 1 <= vendorId <= |s.vendors|
    ensures o.result.Err? ==> o.result.error == NotFound && o.store == s
    ensures o.result.Ok? ==>
      && o.result.value == Assess(s, vendorId, today, now)
      && o.result.value.vendorId == vendorId && o.result.value.evaluatedAt == now
      && o.store.documents == s.documents && o.store.flags == s.flags && |o.store.vendors| == |s.vendors|
      && (forall k :: 0 <= k < |s.vendors| && k != vendorId - 1 ==> o.store.vendors[k] == s.vendors[k])
      && OnlyRiskChanged(s.vendors[vendorId - 1], o.store.vendors[vendorId - 1])
      && o.store.vendors[vendorId - 1].riskScore == o.result.value.riskScore
      && o.store.vendors[vendorId - 1].lastRiskCalculatedAt == Some(now)
  {
    if 1 <= vendorId <= |s.vendors| then Outcome(Ok(Assess(s, vendorId, today, now)), Rescore(s, vendorId, today, now))
    else Outcome(Err(NotFound), s)
  }

  /**
   * Calculating twice with nothing in between: the second report has the
   * same score, level and lists, and the second write-back changes nothing
   * but the calculation time.
   */
  lemma RiskCalculationTwice(s: Store, vendorId: nat, today: int, now: int, later: int)
    requires 1 <= vendorId <= |s.vendors|
    ensures var first := RiskCalculation(s, vendorId, today, now);
      var second := RiskCalculation(first.store, vendorId, today, later);
      && second.result.Ok?
      && second.result.value == first.result.value.(evaluatedAt := later)
      && second.store == Rescore(first.store, vendorId, today, later)
      && RiskCalculation(first.store, vendorId, today, now).store == first.store
  {
    RescoreIdempotent(s, vendorId, today, now, later);
  }

  lemma RiskCalculationEvolves(s: Store, vendorId: nat, today: int, now: int)
    requires WellFormed(s)
    ensures WellFormed(RiskCalculation(s, vendorId, today, now).store)
    ensures Evolves(s, RiskCalculation(s, vendorId, today, now).store)
  {
    RescoreEvolves(s, vendorId, today, now);
  }

  // ---------------------------------------------------------------------------
  // AuditFlagService

  /**
   * addAuditFlag: not found for an unknown vendor; otherwise a new open flag
   * for the vendor with the description, then a rescore of that vendor.
   */
  function FlagAddition(s: Store, vendorId: nat, description: string, today: int, now: int): (o: Outcome<AuditFlag>)
    ensures o.result.Ok? <==> 1 <= vendorId <= |s.vendors|
    ensures o.result.Err? ==> o.result.error == NotFound && o.store == s
    ensures o.result.Ok? ==>
      && o.result.value.vendorId == vendorId && o.result.value.description == description
      && !o.result.value.resolved && o.result.value.resolvedAt == None
      && o.result.value.id == |s.flags| + 1
      && o.store.flags == s.flags + [o.result.value] && o.store.documents == s.documents
      && |o.store.vendors| == |s.vendors|
      && CountUnresolvedByVendor(o.store.flags, vendorId) == CountUnresolvedByVendor(s.flags, vendorId) + 1
      && o.store.vendors[vendorId - 1].riskScore == Assess(o.store, vendorId, today, now).riskScore
      && o.store.vendors[vendorId - 1].lastRiskCalculatedAt == Some(now)
      && OnlyRiskChanged(s.vendors[vendorId - 1], o.store.vendors[vendorId - 1])
      && (forall k :: 0 <= k < |s.vendors| && k != vendorId - 1 ==> o.store.vendors[k] == s.vendors[k])
  {
    if 1 <= vendorId <= |s.vendors| then
      var added := AddFlag(s, vendorId, description);
      AddFlagCounts(s, vendorId, description, vendorId);
      Outcome(Ok(added.flags[|s.flags|]), Rescore(added, vendorId, today, now))
    else Outcome(Err(NotFound), s)
  }

  lemma FlagAdditionEvolves(s: Store, vendorId: nat, description: string, today: int, now: int)
    requires WellFormed(s)
    ensures WellFormed(FlagAddition(s, vendorId, description, today, now).store)
    ensures Evolves(s, FlagAddition(s, vendorId, description, today, now).store)
  {
    if 1 <= vendorId <= |s.vendors| {
      var added := AddFlag(s, vendorId, description);
      AddFlagEvolves(s, vendorId, description);
      RescoreEvolves(added, vendorId, today, now);
      EvolvesTransitive(s, added, Rescore(added, vendorId, today, now));
    } else {
      assert s.documents[..|s.documents|] == s.documents;
    }
  }

  /**
   * resolveAuditFlag: not found for an unknown flag id; otherwise the flag is
   * marked resolved at `now` (whether or not it was resolved before) and its
   * vendor is rescored.
   */
  function FlagResolution(s: Store, flagId: nat, today: int, now: int): (o: Outcome<AuditFlag>)
    ensures o.result.Ok? <==> 1 <= flagId <= |s.flags|
    ensures o.result.Err? ==> o.result.error == NotFound && o.store == s
    ensures o.result.Ok? ==>
      && o.result.value == s.flags[flagId - 1].(resolved := true, resolvedAt := Some(now))
      && o.store.flags == s.flags[flagId - 1 := o.result.value] && o.store.documents == s.documents
      && |o.store.vendors| == |s.vendors|
      && (forall k :: 0 <= k < |s.vendors| && k != s.flags[flagId - 1].vendorId - 1 ==> o.store.vendors[k] == s.vendors[k])
      && (var owner := s.flags[flagId - 1].vendorId;
          1 <= owner <= |s.vendors| ==>
            && o.store.vendors[owner - 1].riskScore == Assess(o.store, owner, today, now).riskScore
            && o.store.vendors[owner - 1].lastRiskCalculatedAt == Some(now)
            && OnlyRiskChanged(s.vendors[owner - 1], o.store.vendors[owner - 1]))
  {
    if 1 <= flagId <= |s.flags| then
      var f := s.flags[flagId - 1];
      Outcome(Ok(Resolved(f, now)), Rescore(ResolveFlag(s, flagId, now), f.vendorId, today, now))
    else Outcome(Err(NotFound), s)
  }

  /**
   * After a resolve the owner's open count has dropped by one if the flag was
   * open and is unchanged if it was resolved already; every other vendor's
   * count is unchanged, and the owner's stored score is the one computed
   * from the new state.
   */
  lemma FlagResolutionCounts(s: Store, flagId: nat, today: int, now: int, vendorId: nat)
    requires 1 <= flagId <= |s.flags|
    ensures var f := s.flags[flagId - 1];
      var r := FlagResolution(s, flagId, today, now).store;
      && CountUnresolvedByVendor(r.flags, vendorId)
           == CountUnresolvedByVendor(s.flags, vendorId) - (if OpenFor(f, vendorId) then 1 else 0)
      && (f.resolved ==> CountUnresolvedByVendor(r.flags, vendorId) == CountUnresolvedByVendor(s.flags, vendorId))
      && (1 <= f.vendorId <= |s.vendors| ==>
            r.vendors[f.vendorId - 1].riskScore == Assess(r, f.vendorId, today, now).riskScore)
  {
    ResolveCounts(s, flagId, now, vendorId);
  }

  /** Resolving the same flag twice succeeds both times; the second only moves the resolution time. */
  lemma FlagResolutionTwice(s: Store, flagId: nat, today: int, now: int, next: int)
    requires 1 <= flagId <= |s.flags|
    ensures var first := FlagResolution(s, flagId, today, now);
      var second := FlagResolution(first.store, flagId, today, next);
      && second.result == Ok(first.result.value.(resolvedAt := Some(next)))
      && second.store.flags == first.store.flags[flagId - 1 := second.result.value]
  {
  }

  lemma FlagResolutionEvolves(s: Store, flagId: nat, today: int, now: int)
    requires WellFormed(s)
    ensures WellFormed(FlagResolution(s, flagId, today, now).store)
    ensures Evolves(s, FlagResolution(s, flagId, today, now).store)
  {
    if 1 <= flagId <= |s.flags| {
      var resolved := ResolveFlag(s, flagId, now);
      var vendorId := s.flags[flagId - 1].vendorId;
      ResolveEvolves(s, flagId, now);
      RescoreEvolves(resolved, vendorId, today, now);
      EvolvesTransitive(s, resolved, Rescore(resolved, vendorId, today, now));
    } else {
      assert s.documents[..|s.documents|] == s.documents;
    }
  }

  // ---------------------------------------------------------------------------
  // VendorDocumentService

  /** The file check of uploadDocument: a file must be present and non-empty. */
  predicate HasContent(file: Option<UploadedFile>) {
    file.Some? && file.value.size > 0
  }

  /**
   * uploadDocument: the vendor must exist, then the file must be non-empty,
   * then the type and then the expiry date must be given; a valid upload
   * appends one document, rescores the vendor and returns the document's
   * response.
   */
  function DocumentUpload(s: Store, vendorId: nat, docType: Option<DocumentType>, file: Option<UploadedFile>,
                          expiryDate: Option<int>, actor: string, today: int, now: int): (o: Outcome<DocumentView>)
    ensures o.result == Err(NotFound) <==> !(1 <= vendorId <= |s.vendors|)
    ensures o.result == Err(BadRequest(FileRequired)) <==> 1 <= vendorId <= |s.vendors| && !HasContent(file)
    ensures o.result == Err(BadRequest(TypeRequired)) <==>
      1 <= vendorId <= |s.vendors| && HasContent(file) && docType.None?
    ensures o.result == Err(BadRequest(ExpiryRequired)) <==>
      1 <= vendorId <= |s.vendors| && HasContent(file) && docType.Some? && expiryDate.None?
    ensures 1 <= vendorId <= |s.vendors| && HasContent(file) && docType.Some? && expiryDate.Some? ==> o.result.Ok?
    ensures o.result.Err? ==> o.store == s
    ensures o.result.Ok? ==>
      && 1 <= vendorId <= |s.vendors| && HasContent(file) && docType.Some? && expiryDate.Some?
      && o.store.flags == s.flags && |o.store.vendors| == |s.vendors|
      && o.store.documents == s.documents + [NewDocument(|s.documents| + 1, vendorId, docType.value, file.value,
                                                         expiryDate.value, actor, now)]
      && o.result.value == ToResponse(o.store.documents[|s.documents|], today)
      && o.result.value.expired == (expiryDate.value < today)
      && o.store.vendors[vendorId - 1].riskScore == Assess(o.store, vendorId, today, now).riskScore
      && o.store.vendors[vendorId - 1].lastRiskCalculatedAt == Some(now)
      && OnlyRiskChanged(s.vendors[vendorId - 1], o.store.vendors[vendorId - 1])
      && (forall k :: 0 <= k < |s.vendors| && k != vendorId - 1 ==> o.store.vendors[k] == s.vendors[k])
  {
    if !(1 <= vendorId <= |s.vendors|) then Outcome(Err(NotFound), s)
    else if !HasContent(file) then Outcome(Err(BadRequest(FileRequired)), s)
    else if docType.None? then Outcome(Err(BadRequest(TypeRequired)), s)
    else if expiryDate.None? then Outcome(Err(BadRequest(ExpiryRequired)), s)
    else
      var d := NewDocument(|s.documents| + 1, vendorId, docType.value, file.value, expiryDate.value, actor, now);
      Outcome(Ok(ToResponse(d, today)), Rescore(AddDocument(s, d), vendorId, today, now))
  }

  lemma DocumentUploadEvolves(s: Store, vendorId: nat, docType: Option<DocumentType>, file: Option<UploadedFile>,
                              expiryDate: Option<int>, actor: string, today: int, now: int)
    requires WellFormed(s)
    ensures WellFormed(DocumentUpload(s, vendorId, docType, file, expiryDate, actor, today, now).store)
    ensures Evolves(s, DocumentUpload(s, vendorId, docType, file, expiryDate, actor, today, now).store)
  {
    var o := DocumentUpload(s, vendorId, docType, file, expiryDate, actor, today, now);
    if o.result.Ok? {
      var d := NewDocument(|s.documents| + 1, vendorId, docType.value, file.value, expiryDate.value, actor, now);
      var added := AddDocument(s, d);
      AddDocumentEvolves(s, d);
      RescoreEvolves(added, vendorId, today, now);
      EvolvesTransitive(s, added, o.store);
    } else {
      assert s.documents[..|s.documents|] == s.documents;
    }
  }

  /**
   * A valid upload keeps every earlier document of the vendor, of the same
   * type included, and the new one is the latest of its type when it was
   * uploaded no earlier than every stored document.
   */
  lemma UploadKeepsHistory(s: Store, vendorId: nat, docType: DocumentType, file: UploadedFile,
                           expiryDate: int, actor: string, today: int, now: int)
    requires 1 <= vendorId <= |s.vendors| && file.size > 0
    requires forall e :: e in s.documents ==> e.uploadedAt <= now
    ensures var r := DocumentUpload(s, vendorId, Some(docType), Some(file), Some(expiryDate), actor, today, now).store;
      var d := NewDocument(|s.documents| + 1, vendorId, docType, file, expiryDate, actor, now);
      && (forall e :: e in s.documents ==> e in r.documents)
      && ByVendorNewestFirst(r.documents, vendorId) == [d] + ByVendorNewestFirst(s.documents, vendorId)
      && FirstOfType(ByVendorNewestFirst(r.documents, vendorId), docType) == Some(d)
  {
    var d := NewDocument(|s.documents| + 1, vendorId, docType, file, expiryDate, actor, now);
    UploadComesFirst(s.documents, d);
    FirstOfTypeCons(d, ByVendorNewestFirst(s.documents, vendorId), docType);
  }
}

=== FILE: sweeps.dfy ===
/**
 * The two daily jobs of ScheduledJobService as functions of the store: the
 * expired-document sweep (one flag per vendor with expired documents unless
 * one is already open, each followed by a rescore) and the high-risk sweep
 * (one flag per vendor at or above the threshold, no rescore). The engine's
 * loops are proved to compute these functions.
 */
module Sweeps {
  import opened Common
  import opened Seqs
  import opened Entities
  import opened Repositories
  import opened Risk
  import opened Ledger

  const ExpiryMarker := "Expired documents"
  const ExpiryPrefix := "Expired documents detected: "
  const TypeSeparator := ", "
  const HighRiskMarker := "High risk"
  const HighRiskPrefix := "Vendor risk score exceeded threshold: "
  const HighRiskSuffix := "/100"
  const HighRiskThreshold := 60

  // ---------------------------------------------------------------------------
  // Expired-document sweep

  function DocVendorId(d: Document): nat { d.vendorId }

  function DocTypeName(d: Document): string { TypeName(d.docType) }

  /** The set of vendor ids of the expired documents, iterated in order of first occurrence. */
  function VendorsWithExpired(expired: seq<Document>): (ids: seq<nat>)
    ensures NoDuplicates(ids)
    ensures forall v :: v in ids <==> exists d :: d in expired && d.vendorId == v
  {
    var all := MapSeq(expired, DocVendorId);
    forall v ensures v in all <==> exists d :: d in expired && d.vendorId == v {
      if v in all {
        var k :| 0 <= k < |all| && all[k] == v;
        assert expired[k] in expired;
      }
      if exists d :: d in expired && d.vendorId == v {
        var d :| d in expired && d.vendorId == v;
        var k :| 0 <= k < |expired| && expired[k] == d;
        assert all[k] == v;
      }
    }
    Distinct(all)
  }

  /** The new flag's text: the prefix and the distinct type names of the vendor's expired documents. */
  function ExpiryDescription(expired: seq<Document>, vendorId: nat): (description: string)
    ensures StartsWith(description, ExpiryMarker)
  {
    var names := Distinct(MapSeq(Filter(expired, OfVendor(vendorId)), DocTypeName));
    var description := ExpiryPrefix + Join(names, TypeSeparator);
    assert description[..|ExpiryMarker|] == ExpiryPrefix[..|ExpiryMarker|];
    description
  }

  /** The guard: an open flag of the vendor whose text starts with "Expired documents". */
  predicate HasExpiryFlag(flags: seq<AuditFlag>, vendorId: nat) {
    exists f :: f in UnresolvedByVendor(flags, vendorId) && StartsWith(f.description, ExpiryMarker)
  }

  /** One iteration of the loop over vendor ids. */
  function ExpiryStep(s: Store, expired: seq<Document>, vendorId: nat, today: int, now: int): Store {
    if HasExpiryFlag(s.flags, vendorId) then s
    else if FindVendor(s.vendors, vendorId).None? then s
    else Rescore(AddFlag(s, vendorId, ExpiryDescription(expired, vendorId)), vendorId, today, now)
  }

  lemma OnlyRiskChangedReflexive(v: Vendor)
    ensures OnlyRiskChanged(v, v)
  {
  }

  lemma OnlyRiskChangedTransitive(a: Vendor, b: Vendor, c: Vendor)
    requires OnlyRiskChanged(a, b) && OnlyRiskChanged(b, c)
    ensures OnlyRiskChanged(a, c)
  {
  }

  /**
   * A step either changes nothing or appends exactly the vendor's expiry flag
   * (for a stored vendor without a guarding flag) and rescores; documents and
   * vendor identities are untouched.
   */
  ghost predicate StepOutcome(s: Store, r: Store, expired: seq<Document>, vendorId: nat) {
    && r.documents == s.documents && |r.vendors| == |s.vendors|
    && (forall k :: 0 <= k < |s.vendors| ==> OnlyRiskChanged(s.vendors[k], r.vendors[k]))
    && (r.flags == s.flags
        || (&& r.flags == s.flags + [NewFlag(|s.flags| + 1, vendorId, ExpiryDescription(expired, vendorId))]
            && 1 <= vendorId <= |s.vendors|
            && !HasExpiryFlag(s.flags, vendorId)))
  }

  lemma ExpiryStepFrame(s: Store, expired: seq<Document>, vendorId: nat, today: int, now: int)
    ensures StepOutcome(s, ExpiryStep(s, expired, vendorId, today, now), expired, vendorId)
  {
    if !HasExpiryFlag(s.flags, vendorId) && FindVendor(s.vendors, vendorId).Some? {
    } else {
      forall k | 0 <= k < |s.vendors| ensures OnlyRiskChanged(s.vendors[k], s.vendors[k]) {
        OnlyRiskChangedReflexive(s.vendors[k]);
      }
    }
  }

  /** The loop over vendor ids, one step per id in order. */
  function ExpiryPass(s: Store, expired: seq<Document>, ids: seq<nat>, today: int, now: int): (r: Store)
    ensures r.documents == s.documents && |r.vendors| == |s.vendors|
    ensures forall k :: 0 <= k < |s.vendors| ==> OnlyRiskChanged(s.vendors[k], r.vendors[k])
    ensures |s.flags| <= |r.flags| <= |s.flags| + |ids| && r.flags[..|s.flags|] == s.flags
  {
    if ids == [] then s
    else
      var prev := ExpiryPass(s, expired, ids[..|ids| - 1], today, now);
      var v := ids[|ids| - 1];
      ExpiryStepFrame(prev, expired, v, today, now);
      var r := ExpiryStep(prev, expired, v, today, now);
      forall k | 0 <= k < |s.vendors| ensures OnlyRiskChanged(s.vendors[k], r.vendors[k]) {
        OnlyRiskChangedTransitive(s.vendors[k], prev.vendors[k], r.vendors[k]);
      }
      assert r.flags[..|s.flags|] == prev.flags[..|s.flags|];
      r
  }

  /** dailyExpiredDocumentCheck */
  function ExpirySweep(s: Store, today: int, now: int): Store {
    var expired := ExpiredDocuments(s.vendors, s.documents, today);
    if expired == [] then s
    else ExpiryPass(s, expired, VendorsWithExpired(expired), today, now)
  }

  /** Appending flags never removes an open flag that satisfies the guard. */
  lemma ExpiryGuardPersists(before: seq<AuditFlag>, after: seq<AuditFlag>, vendorId: nat)
    requires |before| <= |after| && after[..|before|] == before
    requires HasExpiryFlag(before, vendorId)
    ensures HasExpiryFlag(after, vendorId)
  {
    var f :| f in UnresolvedByVendor(before, vendorId) && StartsWith(f.description, ExpiryMarker);
    assert f in after[..|before|];
  }

  /** A step that finds no guarding flag and a stored vendor adds the flag and rescores that vendor. */
  lemma ExpiryStepFlagsAndRescores(s: Store, expired: seq<Document>, vendorId: nat, today: int, now: int, later: int)
    requires !HasExpiryFlag(s.flags, vendorId) && 1 <= vendorId <= |s.vendors|
    ensures var r := ExpiryStep(s, expired, vendorId, today, now);
      && r.flags == s.flags + [NewFlag(|s.flags| + 1, vendorId, ExpiryDescription(expired, vendorId))]
      && HasExpiryFlag(r.flags, vendorId)
      && r.vendors[vendorId - 1].riskScore == Assess(r, vendorId, today, later).riskScore
      && r.vendors[vendorId - 1].lastRiskCalculatedAt == Some(now)
  {
    var r := ExpiryStep(s, expired, vendorId, today, now);
    var f := NewFlag(|s.flags| + 1, vendorId, ExpiryDescription(expired, vendorId));
    assert f in UnresolvedByVendor(r.flags, vendorId);
  }

  /** After the loop every visited id has a guarding flag, unless no vendor has that id. */
  lemma {:induction false} ExpiryPassCovers(s: Store, expired: seq<Document>, ids: seq<nat>, today: int, now: int)
    ensures forall v :: v in ids ==>
      HasExpiryFlag(ExpiryPass(s, expired, ids, today, now).flags, v) || FindVendor(s.vendors, v).None?
    decreases |ids|
  {
    if ids != [] {
      var init, last := ids[..|ids| - 1], ids[|ids| - 1];
      var prev := ExpiryPass(s, expired, init, today, now);
      var r := ExpiryPass(s, expired, ids, today, now);
      ExpiryPassCovers(s, expired, init, today, now);
      assert r == ExpiryStep(prev, expired, last, today, now);
      assert |r.flags| >= |prev.flags| && r.flags[..|prev.flags|] == prev.flags;
      forall v | v in ids && FindVendor(s.vendors, v).Some? ensures HasExpiryFlag(r.flags, v) {
        if v in init && HasExpiryFlag(prev.flags, v) {
          ExpiryGuardPersists(prev.flags, r.flags, v);
        } else if v == last && !HasExpiryFlag(prev.flags, v) {
          ExpiryStepFlagsAndRescores(prev, expired, v, today, now, now);
        } else if v == last {
          ExpiryGuardPersists(prev.flags, r.flags, v);
        }
      }
    }
  }

  /** A loop whose every id is already guarded (or unknown) changes nothing. */
  lemma {:induction false} ExpiryPassIdle(s: Store, expired: seq<Document>, ids: seq<nat>, today: int, now: int)
    requires forall v :: v in ids ==> HasExpiryFlag(s.flags, v) || FindVendor(s.vendors, v).None?
    ensures ExpiryPass(s, expired, ids, today, now) == s
    decreases |ids|
  {
    if ids != [] {
      ExpiryPassIdle(s, expired, ids[..|ids| - 1], today, now);
    }
  }

  /** The sweep's query sees the same documents after a sweep: statuses and documents are untouched. */
  lemma ExpiredQueryStable(s: Store, r: Store, today: int)
    requires r.documents == s.documents && |r.vendors| == |s.vendors|
    requires forall k :: 0 <= k < |s.vendors| ==> r.vendors[k].status == s.vendors[k].status
    ensures ExpiredDocuments(r.vendors, r.documents, today) == ExpiredDocuments(s.vendors, s.documents, today)
  {
    FilterCongruence(s.documents, ExpiredOn(r.vendors, today), ExpiredOn(s.vendors, today));
  }

  /** Two back-to-back runs on the same day: the second adds nothing and rescores nobody. */
  lemma ExpirySweepTwice(s: Store, today: int, now: int, later: int)
    ensures ExpirySweep(ExpirySweep(s, today, now), today, later) == ExpirySweep(s, today, now)
  {
    var expired := ExpiredDocuments(s.vendors, s.documents, today);
    var r := ExpirySweep(s, today, now);
    if expired != [] {
      var ids := VendorsWithExpired(expired);
      ExpiredQueryStable(s, r, today);
      ExpiryPassCovers(s, expired, ids, today, now);
      ExpiryPassIdle(r, expired, ids, today, later);
    }
  }

  /**
   * The flags after the loop are the flags before it followed by new open
   * expiry flags with consecutive ids, for visited ids of stored vendors, at most one per vendor.
   */
  ghost predicate AddsExpiryFlags(before: seq<AuditFlag>, after: seq<AuditFlag>, expired: seq<Document>,
                                  ids: seq<nat>, vendorCount: nat) {
    && (forall k :: |before| <= k < |after| ==>
          && after[k] == NewFlag(k + 1, after[k].vendorId, ExpiryDescription(expired, after[k].vendorId))
          && after[k].vendorId in ids
          && 1 <= after[k].vendorId <= vendorCount)
    && (forall i, j :: |before| <= i < j < |after| ==> after[i].vendorId != after[j].vendorId)
  }

  /** One more step keeps `AddsExpiryFlags` when the step's id was not visited before. */
  lemma AddsExpiryFlagsStep(before: seq<AuditFlag>, prev: seq<AuditFlag>, after: seq<AuditFlag>,
                            expired: seq<Document>, init: seq<nat>, last: nat, vendorCount: nat)
    requires |before| <= |prev| && AddsExpiryFlags(before, prev, expired, init, vendorCount)
    requires last !in init
    requires after == prev || (after == prev + [NewFlag(|prev| + 1, last, ExpiryDescription(expired, last))]
                               && 1 <= last <= vendorCount)
    ensures AddsExpiryFlags(before, after, expired, init + [last], vendorCount)
  {
    var ids := init + [last];
    forall k | |before| <= k < |after|
      ensures after[k] == NewFlag(k + 1, after[k].vendorId, ExpiryDescription(expired, after[k].vendorId))
      ensures after[k].vendorId in ids && 1 <= after[k].vendorId <= vendorCount
    {
      if k < |prev| {
        assert after[k] == prev[k];
      }
    }
    forall i, j | |before| <= i < j < |after| ensures after[i].vendorId != after[j].vendorId {
      assert after[i] == prev[i];
      if j >= |prev| {
        assert after[j].vendorId == last;
      } else {
        assert after[j] == prev[j];
      }
    }
  }

  lemma ExpiryPassAdds(s: Store, expired: seq<Document>, ids: seq<nat>, today: int, now: int)
    requires NoDuplicates(ids)
    ensures AddsExpiryFlags(s.flags, ExpiryPass(s, expired, ids, today, now).flags, expired, ids, |s.vendors|)
  {
    ExpiryPassFlags(s, expired, ids, today, now);
    ExpiryFlagsPassAdds(s.flags, expired, ids, |s.vendors|);
  }

  /** The flag table after one step depends only on the flags and on how many vendors are stored. */
  function ExpiryFlagsStep(flags: seq<AuditFlag>, expired: seq<Document>, vendorId: nat, vendorCount: nat): seq<AuditFlag> {
    if HasExpiryFlag(flags, vendorId) || !(1 <= vendorId <= vendorCount) then flags
    else flags + [NewFlag(|flags| + 1, vendorId, ExpiryDescription(expired, vendorId))]
  }

  function ExpiryFlagsPass(flags: seq<AuditFlag>, expired: seq<Document>, ids: seq<nat>, vendorCount: nat): seq<AuditFlag> {
    if ids == [] then flags
    else ExpiryFlagsStep(ExpiryFlagsPass(flags, expired, ids[..|ids| - 1], vendorCount), expired, ids[|ids| - 1], vendorCount)
  }

  lemma {:induction false} ExpiryPassFlags(s: Store, expired: seq<Document>, ids: seq<nat>, today: int, now: int)
    ensures ExpiryPass(s, expired, ids, today, now).flags == ExpiryFlagsPass(s.flags, expired, ids, |s.vendors|)
    decreases |ids|
  {
    if ids != [] {
      var init, last := ids[..|ids| - 1], ids[|ids| - 1];
      var prev := ExpiryPass(s, expired, init, today, now);
      ExpiryPassFlags(s, expired, init, today, now);
      ExpiryStepFlags(prev, expired, last, today, now);
      assert |prev.vendors| == |s.vendors|;
      assert ExpiryPass(s, expired, ids, today, now) == ExpiryStep(prev, expired, last, today, now);
    }
  }

  lemma ExpiryStepFlags(s: Store, expired: seq<Document>, vendorId: nat, today: int, now: int)
    ensures ExpiryStep(s, expired, vendorId, today, now).flags == ExpiryFlagsStep(s.flags, expired, vendorId, |s.vendors|)
  {
    if !HasExpiryFlag(s.flags, vendorId) && FindVendor(s.vendors, vendorId).Some? {
      var added := AddFlag(s, vendorId, ExpiryDescription(expired, vendorId));
      assert Rescore(added, vendorId, today, now).flags == added.flags;
    }
  }

  lemma {:induction false} ExpiryFlagsPassAdds(flags: seq<AuditFlag>, expired: seq<Document>, ids: seq<nat>, vendorCount: nat)
    requires NoDuplicates(ids)
    ensures |flags| <= |ExpiryFlagsPass(flags, expired, ids, vendorCount)|
    ensures AddsExpiryFlags(flags, ExpiryFlagsPass(flags, expired, ids, vendorCount), expired, ids, vendorCount)
    decreases |ids|
  {
    if ids != [] {
      var init, last := ids[..|ids| - 1], ids[|ids| - 1];
      var prev := ExpiryFlagsPass(flags, expired, init, vendorCount);
      NoDuplicatesSnoc(ids);
      ExpiryFlagsPassAdds(flags, expired, init, vendorCount);
      AddsExpiryFlagsStep(flags, prev, ExpiryFlagsStep(prev, expired, last, vendorCount), expired, init, last, vendorCount);
      assert ids == init + [last];
    }
  }

  /** The vendor owns a document that expires on or before `today` while the vendor is APPROVED. */
  ghost predicate HasExpiredDocument(s: Store, vendorId: nat, today: int) {
    exists d :: d in s.documents && d.vendorId == vendorId && d.expiryDate <= today && VendorApproved(s.vendors, vendorId)
  }

  /**
   * What a run of dailyExpiredDocumentCheck may do to `s`: no document and no
   * vendor field other than the risk score, its calculation time and the
   * update time changes; the flags are kept and followed by open expiry flags,
   * at most one per vendor, only for vendors with an expired document.
   */
  ghost predicate ExpiryOutcome(s: Store, r: Store, today: int) {
    && r.documents == s.documents && |r.vendors| == |s.vendors|
    && (forall k :: 0 <= k < |s.vendors| ==> OnlyRiskChanged(s.vendors[k], r.vendors[k]))
    && |s.flags| <= |r.flags| && r.flags[..|s.flags|] == s.flags
    && (forall k :: |s.flags| <= k < |r.flags| ==>
          && !r.flags[k].resolved
          && StartsWith(r.flags[k].description, ExpiryMarker)
          && HasExpiredDocument(s, r.flags[k].vendorId, today))
    && (forall i, j :: |s.flags| <= i < j < |r.flags| ==> r.flags[i].vendorId != r.flags[j].vendorId)
  }

  lemma ExpirySweepAdds(s: Store, today: int, now: int)
    ensures ExpiryOutcome(s, ExpirySweep(s, today, now), today)
  {
    var expired := ExpiredDocuments(s.vendors, s.documents, today);
    var r := ExpirySweep(s, today, now);
    if expired != [] {
      var ids := VendorsWithExpired(expired);
      assert r == ExpiryPass(s, expired, ids, today, now);
      ExpiryPassAdds(s, expired, ids, today, now);
      forall k | |s.flags| <= k < |r.flags|
        ensures !r.flags[k].resolved && StartsWith(r.flags[k].description, ExpiryMarker)
        ensures HasExpiredDocument(s, r.flags[k].vendorId, today)
      {
        var v := r.flags[k].vendorId;
        assert r.flags[k].description == ExpiryDescription(expired, v);
        assert v in ids;
        var d :| d in expired && d.vendorId == v;
      }
    } else {
      forall k | 0 <= k < |s.vendors| ensures OnlyRiskChanged(s.vendors[k], r.vendors[k]) {
        OnlyRiskChangedReflexive(s.vendors[k]);
      }
    }
  }

  lemma ExpirySweepEvolves(s: Store, today: int, now: int)
    requires WellFormed(s)
    ensures WellFormed(ExpirySweep(s, today, now)) && Evolves(s, ExpirySweep(s, today, now))
  {
    var expired := ExpiredDocuments(s.vendors, s.documents, today);
    if expired != [] {
      ExpiryPassEvolves(s, expired, VendorsWithExpired(expired), today, now);
    }
  }

  lemma {:induction false} ExpiryPassEvolves(s: Store, expired: seq<Document>, ids: seq<nat>, today: int, now: int)
    requires WellFormed(s)
    ensures WellFormed(ExpiryPass(s, expired, ids, today, now)) && Evolves(s, ExpiryPass(s, expired, ids, today, now))
    decreases |ids|
  {
    if ids != [] {
      var init, v := ids[..|ids| - 1], ids[|ids| - 1];
      var prev := ExpiryPass(s, expired, init, today, now);
      var r := ExpiryPass(s, expired, ids, today, now);
      ExpiryPassEvolves(s, expired, init, today, now);
      assert r == ExpiryStep(prev, expired, v, today, now);
      ExpiryStepEvolves(prev, expired, v, today, now);
      EvolvesTransitive(s, prev, r);
    }
  }

  lemma ExpiryStepEvolves(s: Store, expired: seq<Document>, vendorId: nat, today: int, now: int)
    requires WellFormed(s)
    ensures WellFormed(ExpiryStep(s, expired, vendorId, today, now))
    ensures Evolves(s, ExpiryStep(s, expired, vendorId, today, now))
  {
    var r := ExpiryStep(s, expired, vendorId, today, now);
    if !HasExpiryFlag(s.flags, vendorId) && FindVendor(s.vendors, vendorId).Some? {
      var added := AddFlag(s, vendorId, ExpiryDescription(expired, vendorId));
      AddFlagEvolves(s, vendorId, ExpiryDescription(expired, vendorId));
      RescoreEvolves(added, vendorId, today, now);
      EvolvesTransitive(s, added, r);
    } else {
      assert s.documents[..|s.documents|] == s.documents;
    }
  }

  /**
   * A document expiring today, the latest of its type for an APPROVED vendor,
   * is picked up by the sweep's query, while the scorer still counts its type as current.
   */
  lemma SameDayExpiry(s: Store, d: Document, today: int, now: int)
    requires d in s.documents && d.expiryDate == today && VendorApproved(s.vendors, d.vendorId)
    requires FirstOfType(ByVendorNewestFirst(s.documents, d.vendorId), d.docType) == Some(d)
    ensures d in ExpiredDocuments(s.vendors, s.documents, today)
    ensures d.docType !in Assess(s, d.vendorId, today, now).expiredDocuments
    ensures d.docType !in Assess(s, d.vendorId, today, now).missingDocuments
  {
  }

  // ---------------------------------------------------------------------------
  // High-risk sweep

  /** The new flag's text: the prefix, the score in decimal, "/100". */
  function HighRiskDescription(score: int): string {
    HighRiskPrefix + IntToDecimal(score) + HighRiskSuffix
  }

  /** The text of a high-risk flag never contains "High risk": it has no capital H at all. */
  lemma HighRiskTextLacksMarker(score: int)
    ensures !Contains(HighRiskDescription(score), HighRiskMarker)
  {
    var description := HighRiskDescription(score);
    var digits := IntToDecimal(score);
    IntToDecimalChars(score);
    assert 'H' !in HighRiskPrefix && 'H' !in HighRiskSuffix;
    forall i | 0 <= i < |description| ensures description[i] != 'H' {
      if i < |HighRiskPrefix| {
        assert description[i] == HighRiskPrefix[i];
      } else if i < |HighRiskPrefix| + |digits| {
        assert description[i] == digits[i - |HighRiskPrefix|];
      } else {
        assert description[i] == HighRiskSuffix[i - |HighRiskPrefix| - |digits|];
      }
    }
    forall i | 0 <= i <= |description| - |HighRiskMarker| ensures !OccursAt(description, HighRiskMarker, i) {
      assert description[i..i + |HighRiskMarker|][0] == description[i];
    }
  }

  /** The guard: an open flag of the vendor whose text contains "High risk". */
  predicate HasHighRiskFlag(flags: seq<AuditFlag>, vendorId: nat) {
    exists f :: f in UnresolvedByVendor(flags, vendorId) && Contains(f.description, HighRiskMarker)
  }

  /** One iteration of the loop over the vendors at or above the threshold. */
  function HighRiskStep(flags: seq<AuditFlag>, v: Vendor): seq<AuditFlag> {
    if HasHighRiskFlag(flags, v.id) then flags
    else flags + [NewFlag(|flags| + 1, v.id, HighRiskDescription(v.riskScore))]
  }

  /** The loop over the candidates, in order. */
  function HighRiskPass(flags: seq<AuditFlag>, candidates: seq<Vendor>): (r: seq<AuditFlag>)
    ensures |flags| <= |r| <= |flags| + |candidates| && r[..|flags|] == flags
  {
    if candidates == [] then flags
    else
      var prev := HighRiskPass(flags, candidates[..|candidates| - 1]);
      assert prev[..|flags|] == flags;
      HighRiskStep(prev, candidates[|candidates| - 1])
  }

  /** `f` is the flag the high-risk loop saves, under id `id`, for one of the candidates. */
  ghost predicate IsHighRiskFlagFor(f: AuditFlag, id: nat, candidates: seq<Vendor>) {
    exists v :: v in candidates && f == NewFlag(id, v.id, HighRiskDescription(v.riskScore))
  }

  /** Every flag the loop adds is an open high-risk flag of one of the candidates, with the next id. */
  lemma {:induction false} HighRiskPassAdds(flags: seq<AuditFlag>, candidates: seq<Vendor>)
    ensures forall k :: |flags| <= k < |HighRiskPass(flags, candidates)| ==>
      IsHighRiskFlagFor(HighRiskPass(flags, candidates)[k], k + 1, candidates)
    decreases |candidates|
  {
    if candidates != [] {
      var init, v := candidates[..|candidates| - 1], candidates[|candidates| - 1];
      var prev := HighRiskPass(flags, init);
      var r := HighRiskPass(flags, candidates);
      HighRiskPassAdds(flags, init);
      assert forall k :: |flags| <= k < |prev| ==> IsHighRiskFlagFor(prev[k], k + 1, init);
      forall k | |flags| <= k < |r| ensures IsHighRiskFlagFor(r[k], k + 1, candidates) {
        if k < |prev| {
          assert IsHighRiskFlagFor(prev[k], k + 1, init);
          var c :| c in init && prev[k] == NewFlag(k + 1, c.id, HighRiskDescription(c.riskScore));
          assert c in candidates && r[k] == prev[k];
        } else {
          assert r[k] == NewFlag(k + 1, v.id, HighRiskDescription(v.riskScore));
        }
      }
    }
  }

  function UnflaggedIn(flags: seq<AuditFlag>): Vendor -> bool {
    (v: Vendor) => !HasHighRiskFlag(flags, v.id)
  }

  /** dailyHighRiskVendorCheck: only the flag table changes. */
  function HighRiskSweep(s: Store): (r: Store)
    ensures r.vendors == s.vendors && r.documents == s.documents
  {
    s.(flags := HighRiskPass(s.flags, FindByRiskScoreAtLeast(s.vendors, HighRiskThreshold)))
  }

  /** The high-risk sweep's own flags never satisfy its guard, so the guard reads the same before and after. */
  lemma {:induction false} HighRiskGuardStable(flags: seq<AuditFlag>, candidates: seq<Vendor>, vendorId: nat)
    ensures HasHighRiskFlag(HighRiskPass(flags, candidates), vendorId) <==> HasHighRiskFlag(flags, vendorId)
    decreases |candidates|
  {
    if candidates != [] {
      var init, v := candidates[..|candidates| - 1], candidates[|candidates| - 1];
      var prev := HighRiskPass(flags, init);
      HighRiskGuardStable(flags, init, vendorId);
      if !HasHighRiskFlag(prev, v.id) {
        HighRiskTextLacksMarker(v.riskScore);
        AppendKeepsHighRiskGuard(prev, NewFlag(|prev| + 1, v.id, HighRiskDescription(v.riskScore)), vendorId);
      }
    }
  }

  /** Appending a flag whose text lacks the marker leaves every vendor's guard as it was. */
  lemma AppendKeepsHighRiskGuard(flags: seq<AuditFlag>, g: AuditFlag, vendorId: nat)
    requires !Contains(g.description, HighRiskMarker)
    ensures HasHighRiskFlag(flags + [g], vendorId) <==> HasHighRiskFlag(flags, vendorId)
  {
    var r := flags + [g];
    if HasHighRiskFlag(r, vendorId) {
      var f :| f in UnresolvedByVendor(r, vendorId) && Contains(f.description, HighRiskMarker);
      assert f != g;
      assert f in flags;
    }
    if HasHighRiskFlag(flags, vendorId) {
      var f :| f in UnresolvedByVendor(flags, vendorId) && Contains(f.description, HighRiskMarker);
      assert f in r;
    }
  }

  /** The loop adds exactly one flag per candidate that had no guarding flag when the run started. */
  lemma {:induction false} HighRiskPassGrowth(flags: seq<AuditFlag>, candidates: seq<Vendor>)
    ensures |HighRiskPass(flags, candidates)| == |flags| + |Filter(candidates, UnflaggedIn(flags))|
    decreases |candidates|
  {
    if candidates != [] {
      var init, v := candidates[..|candidates| - 1], candidates[|candidates| - 1];
      HighRiskPassGrowth(flags, init);
      HighRiskGuardStable(flags, init, v.id);
    }
  }

  /** The flags the loop saves for `vendors`, one each and in order, with ids from `next + 1` on. */
  function HighRiskFlags(next: nat, vendors: seq<Vendor>): (r: seq<AuditFlag>)
    ensures |r| == |vendors|
  {
    if vendors == [] then []
    else
      var last := vendors[|vendors| - 1];
      HighRiskFlags(next, vendors[..|vendors| - 1]) + [NewFlag(next + |vendors|, last.id, HighRiskDescription(last.riskScore))]
  }

  /** The `i`-th of those flags is an open high-risk flag of the `i`-th vendor, with its score in the text. */
  lemma {:induction false} HighRiskFlagsAt(next: nat, vendors: seq<Vendor>, i: nat)
    requires i < |vendors|
    ensures HighRiskFlags(next, vendors)[i] == NewFlag(next + i + 1, vendors[i].id, HighRiskDescription(vendors[i].riskScore))
    decreases |vendors|
  {
    var init := vendors[..|vendors| - 1];
    if i < |init| {
      HighRiskFlagsAt(next, init, i);
      assert HighRiskFlags(next, vendors)[i] == HighRiskFlags(next, init)[i];
    }
  }

  /**
   * The loop appends, in candidate order, one flag for each candidate that had
   * no guarding flag when the run started, and none for any other candidate.
   */
  lemma {:induction false} HighRiskPassExact(flags: seq<AuditFlag>, candidates: seq<Vendor>)
    ensures HighRiskPass(flags, candidates) == flags + HighRiskFlags(|flags|, Filter(candidates, UnflaggedIn(flags)))
    decreases |candidates|
  {
    if candidates == [] {
      assert Filter(candidates, UnflaggedIn(flags)) == [];
    } else {
      var init, v := candidates[..|candidates| - 1], candidates[|candidates| - 1];
      assert candidates == init + [v];
      var prev := HighRiskPass(flags, init);
      assert HighRiskPass(flags, candidates) == HighRiskStep(prev, v);
      HighRiskPassExact(flags, init);
      HighRiskGuardStable(flags, init, v.id);
      FilterSnoc(init, v, UnflaggedIn(flags));
      HighRiskStepExact(flags, prev, Filter(init, UnflaggedIn(flags)), v);
      assert UnflaggedIn(flags)(v) == !HasHighRiskFlag(prev, v.id);
    }
  }

  /** One iteration appends the next flag in the numbering exactly when the guard finds none. */
  lemma HighRiskStepExact(flags: seq<AuditFlag>, prev: seq<AuditFlag>, u: seq<Vendor>, v: Vendor)
    requires prev == flags + HighRiskFlags(|flags|, u)
    ensures HighRiskStep(prev, v) == flags + HighRiskFlags(|flags|, u + if HasHighRiskFlag(prev, v.id) then [] else [v])
  {
    if HasHighRiskFlag(prev, v.id) {
      assert HighRiskStep(prev, v) == prev;
      assert u + [] == u;
    } else {
      var g := NewFlag(|flags| + |u| + 1, v.id, HighRiskDescription(v.riskScore));
      assert |prev| == |flags| + |u|;
      HighRiskStepAppends(prev, v);
      HighRiskFlagsSnoc(|flags|, u, v);
      SnocAssociative(flags, HighRiskFlags(|flags|, u), g);
    }
  }

  lemma HighRiskStepAppends(flags: seq<AuditFlag>, v: Vendor)
    requires !HasHighRiskFlag(flags, v.id)
    ensures HighRiskStep(flags, v) == flags + [NewFlag(|flags| + 1, v.id, HighRiskDescription(v.riskScore))]
  {
  }

  lemma HighRiskFlagsSnoc(next: nat, u: seq<Vendor>, v: Vendor)
    ensures HighRiskFlags(next, u + [v]) == HighRiskFlags(next, u) + [NewFlag(next + |u| + 1, v.id, HighRiskDescription(v.riskScore))]
  {
    assert (u + [v])[..|u|] == u;
  }

  lemma SnocAssociative(a: seq<AuditFlag>, b: seq<AuditFlag>, g: AuditFlag)
    ensures a + b + [g] == a + (b + [g])
  {
  }

  /**
   * With no guarding flag to start with, every run of dailyHighRiskVendorCheck
   * adds one more flag for every vendor at or above the threshold: the second
   * run adds as many as the first.
   */
  lemma HighRiskRefires(s: Store)
    requires forall v :: v in s.vendors && v.riskScore >= HighRiskThreshold ==> !HasHighRiskFlag(s.flags, v.id)
    ensures var candidates := FindByRiskScoreAtLeast(s.vendors, HighRiskThreshold);
      && |HighRiskSweep(s).flags| == |s.flags| + |candidates|
      && |HighRiskSweep(HighRiskSweep(s)).flags| == |s.flags| + 2 * |candidates|
  {
    var candidates := FindByRiskScoreAtLeast(s.vendors, HighRiskThreshold);
    var once := HighRiskSweep(s);
    HighRiskPassGrowth(s.flags, candidates);
    FilterAll(candidates, UnflaggedIn(s.flags));
    HighRiskPassGrowth(once.flags, candidates);
    forall v | v in candidates ensures UnflaggedIn(once.flags)(v) {
      HighRiskGuardStable(s.flags, candidates, v.id);
    }
    FilterAll(candidates, UnflaggedIn(once.flags));
  }

  lemma HighRiskSweepEvolves(s: Store)
    requires WellFormed(s)
    ensures WellFormed(HighRiskSweep(s)) && Evolves(s, HighRiskSweep(s))
  {
    var r := HighRiskSweep(s);
    assert r.documents[..|s.documents|] == s.documents;
    forall k | 0 <= k < |r.flags|
      ensures r.flags[k].id == k + 1 && 1 <= r.flags[k].vendorId <= |r.vendors|
      ensures r.flags[k].resolved <==> r.flags[k].resolvedAt.Some?
    {
      HighRiskSweepFlagAt(s, k);
    }
    forall f | f in r.flags ensures 1 <= f.vendorId <= |r.vendors| && (f.resolved <==> f.resolvedAt.Some?) {
      var k :| 0 <= k < |r.flags| && r.flags[k] == f;
    }
    forall k | 0 <= k < |s.flags| ensures r.flags[k] == s.flags[k] {
      assert r.flags[..|s.flags|][k] == r.flags[k];
    }
  }

  /** One row of the flag table after the high-risk sweep is well formed. */
  lemma HighRiskSweepFlagAt(s: Store, k: nat)
    requires WellFormed(s) && k < |HighRiskSweep(s).flags|
    ensures var f := HighRiskSweep(s).flags[k];
      f.id == k + 1 && 1 <= f.vendorId <= |s.vendors| && (f.resolved <==> f.resolvedAt.Some?)
  {
    var r := HighRiskSweep(s);
    var candidates := FindByRiskScoreAtLeast(s.vendors, HighRiskThreshold);
    if k < |s.flags| {
      assert r.flags[..|s.flags|][k] == r.flags[k];
      assert r.flags[k] == s.flags[k] && s.flags[k] in s.flags;
    } else {
      HighRiskPassAdds(s.flags, candidates);
      assert IsHighRiskFlagFor(r.flags[k], k + 1, candidates);
      var v :| v in candidates && r.flags[k] == NewFlag(k + 1, v.id, HighRiskDescription(v.riskScore));
      var j :| 0 <= j < |s.vendors| && s.vendors[j] == v;
    }
  }
}
